=== FILE: README.md ===
# ComsofHelper, modelled in Dafny

`ComsofHelper.py` is a single-operator script that moves fiber-network
design files between fixed folders. It shows a menu and then runs one of
two stages:

- **Set up working environment (choice 1).** Every download whose name
  contains the job number is unzipped into a temporary folder. Its files
  are copied, flattened, into the date-stamped job directory
  `Documents/<state>/<city>/<date>-<job>`. The `reprojected` folder and the
  design tool's workspace folder are created. The download is renamed
  `<stem>_.zip` to mark it processed. An existing job directory stops the
  run.
- **Create deliverable package (choice 2).** Every output file whose
  `splitext` stem is one of six allow-listed shapefile names is copied into
  `Desktop/Deliverables/<state>/<city>/<date>-<job>`. Each copy is renamed
  `name[:3] + "_" + job + name[3:]`, and the copies are counted. With
  exactly 30 copies the folder is zipped and then removed.

The model has six modules:

- `Common`: an option type, paths as sequences of segments, and Python's
  substring test.
- `Names`: the string decisions. These are `splitext` on a bare file name,
  the allow-list filter, the rename, the temporary name, the processed
  marker and the job directory name.
- `Menu`: the acceptance rule of the re-prompt loop, the loop itself over
  the operator's answers, and the dispatch on the raw answer.
- `FileSystem`: directories, files and written archives as a value `Fs`.
  Each library call the script makes is a pure function on `Fs` that
  returns the new state and the error it raises. A class `FileSystem`
  holds the same state in fields and changes it in place.
- `Setup`: choice 1. `Step` and `Run` state what handling one download, and
  then all of them, does to the filesystem. The methods
  `ProcessDownload`, `HandleDirectory` and `SetUpWorkingEnvironment` do
  the work in place and are proved equal to them.
- `Package`: choice 2. `Package` states the stage as a function. The
  methods `CopyIfDeliverable`, `CopyDirectory` and
  `CreateDeliverablePackage` do it in place and are proved equal to it.

Two behaviours of the menu are worth knowing:

- `ComsofHelper.py` offers choices 1 and 2 and quitting, and nothing else.
- The loop of line 46 also accepts "01", "002" and so on. These match
  neither comparison of lines 56 and 106, so they then run neither stage.

## Model

| member | source | states |
|---|---|---|
| Common.ContainsIff | ComsofHelper.py:62 | `job_number in downloaded_file` holds exactly when the job number occurs at some index of the file name |
| Common.ContainsExtend | ComsofHelper.py:62 | a job number found in a prefix of a name is found in the whole name |
| Names.Stem | ComsofHelper.py:66 | the `splitext` stem is a prefix of the name; when shorter, it stops at the last dot of the name |
| Names.StemIff | ComsofHelper.py:66 | the stem is shorter than the name exactly when a dot follows some non-dot character |
| Names.Ext | ComsofHelper.py:129 | stem and extension put together give the name back; the extension is empty or one dot with no further dot; it is empty exactly when the stem is the whole name |
| Names.StemSplit | ComsofHelper.py:129 | a name that is not all dots, followed by a one-dot extension, splits exactly there |
| Names.StemNoDot | ComsofHelper.py:129 | a name without a dot is its own stem and has no extension |
| Names.AllowListShape | ComsofHelper.py:30-35 | each of the six allow-listed names has no dot, starts with "OUT_" and has at least 12 characters |
| Names.AllowListedStem | ComsofHelper.py:129 | an allow-listed name followed by nothing or by a one-dot extension has that name as its stem |
| Names.DeliverableIff | ComsofHelper.py:129 | a file is selected exactly when it is an allow-listed name followed by nothing or by a one-dot extension |
| Names.SidecarIsNotDeliverable | ComsofHelper.py:129 | "OUT_Closures.shp.xml" has stem "OUT_Closures.shp" and is not selected; "OUT_Closures.shp" is selected |
| Names.DeliverableHasOutPrefix | ComsofHelper.py:30-35 | every selected name starts with "OUT_" |
| Names.Rename | ComsofHelper.py:134 | the new name is one character plus the job number longer; it keeps the first three characters (fewer for short names, as Python slicing clamps), then has "_", the job number, and the rest of the old name |
| Names.UnrenameRename | ComsofHelper.py:134 | for names of three or more characters, removing the inserted "_" and job number gives the old name back |
| Names.RenameInjective | ComsofHelper.py:134 | for one job number, two names are renamed alike exactly when they are equal |
| Names.RenameDeliverable | ComsofHelper.py:131-134 | a renamed deliverable starts "OUT_" + job + "_" and continues with the old name after its "OUT_" |
| Names.RenameNoDot | ComsofHelper.py:134 | renaming a dot-free name with a dot-free job number gives a dot-free name |
| Names.RenameAppend | ComsofHelper.py:134 | renaming touches only the first three characters, so any suffix passes through unchanged |
| Names.RenameKeepsExtension | ComsofHelper.py:134 | for a job number without a dot, a renamed deliverable keeps its extension, and its stem is the renamed stem |
| Names.TempName | ComsofHelper.py:66 | the extraction folder's name is the download's stem followed by "_tmp" |
| Names.MarkerName | ComsofHelper.py:104 | the processed name is five characters longer than the stem |
| Names.MarkerSplits | ComsofHelper.py:104 | the processed name has stem `stem + "_"` and extension ".zip", and it always differs from the download's name |
| Names.JobSurvivesInDerivedNames | ComsofHelper.py:62-66 | a job number found in the stem is still in the temporary name and in the processed name, so a processed download still matches line 62 |
| Names.JobDirName | ComsofHelper.py:80 | the job directory name is the date, a '-', then the job number |
| Names.FirstDash | ComsofHelper.py:80 | returns the index of the first '-', with no '-' before it, or None when there is none |
| Names.SplitJobDirNameRoundTrip | ComsofHelper.py:80 | for a date without '-' (such as YYYYMMDD), the date and job number can be read back from the job directory name |
| Names.JobDirNameInjective | ComsofHelper.py:80 | for such dates, two job directory names are equal only for the same date and job |
| Menu.Lower | ComsofHelper.py:46 | `lower()` keeps the length and lowers each ASCII letter |
| Menu.IsQuitIff | ComsofHelper.py:51 | `choice.lower() == 'q'` holds exactly for "q" and "Q" |
| Menu.ValueZeroIff | ComsofHelper.py:46 | a digit string has value 0 exactly when all its digits are '0' |
| Menu.ValueSmallIff | ComsofHelper.py:46 | a digit string has a value v from 1 to 9 exactly when it is v's digit after zero or more '0's |
| Menu.AcceptedIff | ComsofHelper.py:46 | the loop stops exactly on "q", "Q", or "1" or "2" after zero or more '0's |
| Menu.Dispatch | ComsofHelper.py:51-56 | quitting is chosen for "q"/"Q"; choice 1 runs exactly for the raw string "1" and choice 2 (line 106) exactly for "2" |
| Menu.PaddedChoiceRunsNoBranch | ComsofHelper.py:46-56 | an answer passes the loop and runs no stage exactly when it is "1" or "2" with at least one leading zero |
| Menu.LeadingZeroExamples | ComsofHelper.py:46-56 | "01" and "002" pass the loop and run nothing |
| Menu.ReadChoice | ComsofHelper.py:41-49 | returns the index of the first accepted answer, none before it being accepted; returns None exactly when no answer is accepted |
| FileSystem.Ancestors | ComsofHelper.py:100 | the directories `makedirs` creates: exactly the non-empty prefixes of the path, the path itself included |
| FileSystem.Mkdir | ComsofHelper.py:83 | `mkdir` succeeds exactly when the path does not exist and its parent is a directory; it then adds only that directory; on failure nothing changes |
| FileSystem.MakeDirs | ComsofHelper.py:100-101 | `makedirs` succeeds exactly when the path does not exist and adds the path and its parents; on failure nothing changes |
| FileSystem.ExtractAll | ComsofHelper.py:76-77 | extraction fails exactly on a file that is not a zip; otherwise it adds one file per member, and the target folder only when there is a member; an archive without members changes nothing |
| FileSystem.Copy | ComsofHelper.py:96 | a copy adds exactly the destination file |
| FileSystem.RemoveTree | ComsofHelper.py:87 | a successful `rmtree` leaves nothing at or below the path and keeps every other path as it was |
| FileSystem.RmTree | ComsofHelper.py:87 | `rmtree` succeeds exactly on a directory, and then removes the tree; it raises `FileNotFoundError` on a missing path and leaves the filesystem unchanged on any failure |
| FileSystem.MoveFile | ComsofHelper.py:104 | `os.rename` succeeds exactly when the source is a file and the destination does not exist; it then swaps the one for the other and changes nothing else |
| FileSystem.FilesBelow | ComsofHelper.py:144 | every file below the root is listed, relative to the root |
| FileSystem.MakeArchive | ComsofHelper.py:144 | `make_archive` writes the archive with the files below the root, adds no other archive, keeps every earlier one but a same-named one, and leaves directories and files as they were |
| FileSystem.FileSystem.PathExists | ComsofHelper.py:82 | `os.path.exists` on the live state |
| FileSystem.FileSystem.MakeDir | ComsofHelper.py:83 | the live state and error are those of `Mkdir` |
| FileSystem.FileSystem.MakeDirectories | ComsofHelper.py:100-101 | the live state and error are those of `MakeDirs` |
| FileSystem.FileSystem.Extract | ComsofHelper.py:76-77 | the live state and error are those of `ExtractAll` |
| FileSystem.FileSystem.CopyFile | ComsofHelper.py:96 | the live state is that of `Copy` |
| FileSystem.FileSystem.RemoveDirectoryTree | ComsofHelper.py:87 | the live state and error are those of `RmTree` |
| FileSystem.FileSystem.RenameFile | ComsofHelper.py:104 | the live state and error are those of `MoveFile` |
| FileSystem.FileSystem.Archive | ComsofHelper.py:144 | the live state is that of `MakeArchive` |
| Setup.JobDir | ComsofHelper.py:70-80 | the job directory lies three levels below the documents root, under `<state>/<city>`, and is named `<date>-<job>`; it depends on the configuration only |
| Setup.MatchesInIff | ComsofHelper.py:61-62 | a file of one directory is picked exactly when that directory lists it and its name contains the job number |
| Setup.MatchedIff | ComsofHelper.py:60-62 | a download is picked exactly when some directory of the walk lists it and its name contains the job number |
| Setup.ListedSnoc | ComsofHelper.py:60 | a download is listed by a walk exactly when it is listed by the earlier directories or by the last one |
| Setup.FlattenedAdd | ComsofHelper.py:92-96 | copying one more extracted file adds its base name to the job directory |
| Setup.CopyFlattened | ComsofHelper.py:92-96 | the copy loop adds files only |
| Setup.RunSnoc | ComsofHelper.py:60-104 | a run that has not stopped goes on to handle the next matching download, and counts it when that download completes |
| Setup.RunHaltedStays | ComsofHelper.py:85-88 | once the run has stopped, later downloads change nothing |
| Setup.CopiedSurvives | ComsofHelper.py:92-99 | a file extracted into the temporary folder is still in the job directory after the copy and after the temporary folder is removed |
| Setup.StepCompletes | ComsofHelper.py:76-104 | a download handled to the end was a zip; afterwards the job directory holds every member; the `reprojected` and workspace folders exist; the download is under its processed name and no longer under its old one; and, with the downloads tree apart from the workspaces root, nothing is left at or below the temporary folder |
| Setup.FinishKeepsMembers | ComsofHelper.py:100-104 | after a job directory holding every member, the last three calls keep the members, add both folders and replace the download by its processed name |
| Setup.StepLeavesJobDir | ComsofHelper.py:83-104 | a download handled to the end leaves the job directory in place |
| Setup.StepFinishes | ComsofHelper.py:76-104 | a download handled to the end was a zip, and its outcome is that of the last three calls on the state left by extraction, `mkdir`, the copy loop and the removal |
| Setup.StepRemovesTemp | ComsofHelper.py:98-104 | a download handled to the end leaves nothing at or below its temporary folder |
| Setup.FinishKeepsOut | ComsofHelper.py:100-104 | the last three calls add nothing at or below a path apart from the folders they create and from the processed name |
| Setup.StepLeavesReprojectedEmpty | ComsofHelper.py:76-104 | when nothing lay at or below the job directory before, a download handled to the end leaves `reprojected` as a folder with nothing below it |
| Setup.FinishReprojectedEmpty | ComsofHelper.py:100-104 | when nothing but possibly `reprojected` itself lies at or below it, the successful last three calls leave it a folder with nothing below it |
| Setup.CleanedBelowReprojected | ComsofHelper.py:76-99 | with nothing at or below the job directory before, extraction, `mkdir`, the copy loop and the removal leave at most `reprojected` itself at or below `reprojected` |
| Setup.ExtractKeepsApart | ComsofHelper.py:76-77 | extraction adds nothing at or below a path apart from the temporary folder |
| Setup.CopyBelowReprojected | ComsofHelper.py:92-96 | the flattened copies put at most a member named `reprojected` at or below the job directory's `reprojected` |
| Setup.StepReachesFinish | ComsofHelper.py:76-99 | a completed download passed extraction, the conflict check and `mkdir`, leaving the job directory with every member before the last three calls |
| Setup.FinishCompletes | ComsofHelper.py:100-104 | the last three calls add the two folders and replace the download by its processed name |
| Setup.ExtractRemoveKeeps | ComsofHelper.py:76-87 | extracting into the temporary folder and removing it again, whether or not the removal raises, leaves every path apart from it unchanged |
| Setup.OneArchivePerRun | ComsofHelper.py:76-88 | at most one download is handled to the end; with two or more matches the run stops at the first or, at the latest, at the second; if the first completed, the second aborts at the conflict check, fails as a non-zip, or (for an archive without members) fails to remove the missing temporary folder, and leaves the job directory exactly as the first left it |
| Setup.SecondStepHalts | ComsofHelper.py:76-88 | once the job directory exists, a download stops the run before anything is copied: a non-zip at line 76, an archive with members at the conflict check, an archive without members at line 87 when the temporary folder does not exist; the job directory is left unchanged |
| Setup.MatchedPrefix | ComsofHelper.py:60-62 | the matches up to a file of one directory are a prefix of all the walk's matches |
| Setup.MatchesInPrefix | ComsofHelper.py:61-62 | the matches among the first files of a directory are a prefix of the directory's matches |
| Setup.MatchedTake | ComsofHelper.py:60-62 | the matches of the first directories are a prefix of the walk's matches |
| Setup.MatchesInSkip | ComsofHelper.py:62 | a file without the job number adds no match |
| Setup.MatchesInNext | ComsofHelper.py:62 | a file whose name contains the job number is the next match of its directory |
| Setup.HaltedInDirectory | ComsofHelper.py:85-88 | a run that stops within the first files of a directory is not changed by the rest of it |
| Setup.MatchesInAdvance | ComsofHelper.py:62-104 | handling a matching file either takes the run one file further with one more download done, or stops it for the rest of the directory |
| Setup.MatchedSnoc | ComsofHelper.py:60-61 | the matches up to one more directory are the earlier matches followed by that directory's |
| Setup.MatchedHalted | ComsofHelper.py:85-88 | a run that stops within the first directories is the run over the whole walk |
| Setup.CopyTree | ComsofHelper.py:92-96 | the copy loop, over the extracted files in any order, ends in the state given by `CopyFlattened` |
| Setup.ProcessDownload | ComsofHelper.py:63-104 | handling one download in place gives the state and outcome of `Step` |
| Setup.HandleDirectory | ComsofHelper.py:61-104 | the loop over one directory's files continues the run by that directory's matches |
| Setup.SetUpWorkingEnvironment | ComsofHelper.py:60-104 | the walk in place ends in the state, download count and outcome that `Run` gives over all matches |
| Package.OutputPath | ComsofHelper.py:113-115 | the output folder lies four levels below the desktop root and is named `<date>-<job>` |
| Package.ArchivePath | ComsofHelper.py:143-144 | the archive sits beside the output folder, named `<date>-<job>.zip.zip` |
| Package.Copied | ComsofHelper.py:139 | the copies add files only |
| Package.SelectedInIff | ComsofHelper.py:128-129 | a file of one directory is copied exactly when that directory lists it and its stem is allow-listed |
| Package.SelectedIff | ComsofHelper.py:127-129 | a file is copied exactly when some directory of the walk lists it and its stem is allow-listed |
| Package.ListedSnoc | ComsofHelper.py:127 | a file is listed by a walk exactly when it is listed by the earlier directories or by the last one |
| Package.CopiesCarryJobNumber | ComsofHelper.py:131-134 | every copy is named "OUT_" + job + "_" + the rest of the old name, keeping its extension for a job number without a dot |
| Package.DestinationsSnoc | ComsofHelper.py:137-139 | one more copy adds its destination |
| Package.DestinationInjective | ComsofHelper.py:134-137 | two copies land on the same path exactly when the files have the same name |
| Package.DistinctSnoc | ComsofHelper.py:127-140 | names stay distinct with one more file exactly when its name is new |
| Package.CopiesVersusCounter | ComsofHelper.py:137-140 | the copies write at most as many files as the counter says, and exactly that many exactly when no name is selected twice |
| Package.ArchivesIffThirty | ComsofHelper.py:142-147 | the counter is the number of selected files; the archive is made exactly when it is 30; then the archive holds every renamed copy and, unless the removal raised, nothing at or below the output folder is left; the removal raises exactly when the output path already existed as something other than a directory; otherwise no archive is written, the output folder exists, and every copy is in it |
| Package.ArchiveHoldsEarlierAndCopies | ComsofHelper.py:139-144 | with 30 copies the archive lists exactly the files that were below the output folder before the stage together with the renamed copies, replacing any earlier archive of that name |
| Package.ArchiveOutsideOutput | ComsofHelper.py:143-145 | the archive does not lie inside the output folder, so removing that folder keeps it |
| Package.FreshArchiveHoldsCopies | ComsofHelper.py:117-145 | if nothing existed at or below the output path, 30 copies give an archive of exactly the renamed copies, and the removal succeeds |
| Package.ExistingOutputIsDeleted | ComsofHelper.py:117-145 | an output folder that already existed is reported, and with 30 copies it is deleted with every folder and file below it; the archive lists its earlier files beside the copies |
| Package.StoppingOnConflictKeepsExisting | ComsofHelper.py:117-121 | the stage that stops on an existing output path leaves the filesystem untouched then, and otherwise is the stage of lines 106-147 |
| Package.SelectedInPrefix | ComsofHelper.py:128-129 | one more file of a directory adds itself to the selection exactly when it is a deliverable |
| Package.SelectedSnoc | ComsofHelper.py:127-129 | the selection up to one more directory is the earlier selection followed by that directory's |
| Package.CopyNext | ComsofHelper.py:129-140 | one more file of a directory: a deliverable adds its copy and one to the count, any other file changes nothing |
| Package.CopyIfDeliverable | ComsofHelper.py:129-140 | file `j` of a directory, in place: the state and counter continue the selection by that file |
| Package.CopyDirectory | ComsofHelper.py:128-140 | the loop over one directory's files copies its deliverables under their new names and counts them |
| Package.CreateDeliverablePackage | ComsofHelper.py:106-147 | the stage in place ends in the state, counter, conflict report, archive outcome and removal error that `Package` gives |

## Left out

- Console I/O is not modelled: `input()`, `print` and `sys.exit`. The operator's answers are parameters, and an exit is a halt outcome. The confirmation prompt of line 123 only waits, so it has no counterpart.
- The hard-coded user folders and the start-up existence check (lines 16-27) are not modelled. The roots are parameters.
- `datetime.now()` is not modelled (lines 38-39). The date is a string parameter.
- Windows path syntax is not modelled. Paths are sequences of segments, `os.path.join` is concatenation, and names compare case-sensitively.
- `os.walk` order is not modelled. Each walk is given as a sequence of directories with their file lists, fixed when the stage starts.
- File contents, and so overwriting a file with new data, are not modelled.
- Errors are modelled only where the script can hit them on the paths it builds: a download that is not a zip (`BadZipFile`), `mkdir`/`makedirs` on an existing path or a missing parent, `rmtree` on a missing path or one that is not a directory, and `os.rename` onto an existing name. Permission errors and similar failures are not modelled.
- Menu.IsNumeric: only ASCII digits are numeric, so non-ASCII numerals are left out. `int()` reads Unicode decimal digits such as "１" or "٢", so such answers pass the loop of line 46 and then run no stage, one more case of what `Menu.PaddedChoiceRunsNoBranch` states. `int()` raises on other numerals such as "½" or "²".
- Menu.Lower: only ASCII letters are lowered.
- Menu.ReadChoice: when the answers run out it returns None. The script would raise `EOFError` from `input()` there.
- Names.Stem: models `splitext` on bare file names, which is what `os.walk` yields. Names containing a path separator are not covered.
- FileSystem.ExtractAll: members are given by base name. Folders inside an archive are flattened, as the copy loop of lines 92-96 would flatten them anyway. Folder entries are not modelled: an archive holding only folder entries counts as one without members. The two then end differently. In the script, `extractall` creates the extraction folder for such an archive, the removal at line 99 succeeds, and the download is handled to the end with an empty job directory. In the model, the extraction folder is never created, so `Setup.Step` stops with the `FileNotFoundError` of that removal. Extraction into a path that already exists as a plain file is taken to succeed.
- FileSystem.MakeArchive: only files are listed in the archive. `shutil.make_archive` also writes an entry for every folder below the root, so the contents that `Package.ArchiveHoldsEarlierAndCopies` states exactly differ from the real archive's by those folder entries. This matters only when an existing output folder has subfolders.
- FileSystem.Copy: never fails. A missing source, or an output path that exists as a plain file, would raise in `shutil.copy`. For an output path that is a plain file, the script raises at the first copy (line 139) with nothing copied. With 30 copies the model instead reports the `NotADirectory` error of the removal at line 145. With fewer copies it ends normally, with the copies recorded below the plain file.
- Setup.DownloadsApart: the downloads tree is assumed to lie apart from the documents root, as the script's fixed folders do. The choice-1 lemmas that need it require it. `Setup.StepRemovesTemp` also requires the downloads tree to lie apart from the workspaces root, and `Setup.StepLeavesReprojectedEmpty` requires the documents and workspaces roots to lie apart. Both hold for `Downloads`, `Documents` and `Desktop\Workspaces` (lines 18-20).
- Package.FreshArchiveHoldsCopies: "nothing exists below the output path" is a precondition. The value `Fs` does not require every file to sit in an existing directory.

## Findings

| source | as written | input that shows it | evidently intended | confidence | as-written member | corrected member |
|---|---|---|---|---|---|---|
| ComsofHelper.py:117-121 | When the output path already exists, the script prints "Closing to avoid data loss" but does not stop. It copies into that folder, and with 30 copies it zips the folder and deletes it. | Run choice 2 when `Deliverables/<state>/<city>/<date>-<job>` already exists and the walk lists the 30 expected parts. Afterwards the folder and its subfolders are gone. Earlier files are only inside the new archive, and those a copy of the same name overwrote are lost. An earlier `<date>-<job>.zip.zip` is replaced. | Stop when the output path exists, as choice 1 does at line 88, leaving the filesystem untouched (`Package.PackageStoppingOnConflict`). | high, not executed | Package.ExistingOutputIsDeleted | Package.StoppingOnConflictKeepsExisting |

`Package.CreateDeliverablePackage` models the stage as written.

=== FILE: common.dfy ===
/**
 * Value types shared by every part of the model of the job-file helper
 * script: an optional value, filesystem paths, and Python's substring test.
 */
module Common {

  datatype Option<T> = None | Some(value: T)

  /**
   * A filesystem path as its sequence of segments.  Joining a directory and a
   * name (`os.path.join`) is sequence concatenation; the separator rules of
   * Windows paths are not modelled.
   */
  type Path = seq<string>

  /** `a` and `b` are unrelated paths: neither lies inside the other. */
  predicate Apart(a: Path, b: Path)
  {
    !(a <= b) && !(b <= a)
  }

  /** `pat` occurs in `s` starting at index `i`. */
  predicate OccursAt(pat: string, s: string, i: nat)
  {
    i + |pat| <= |s| && s[i..i + |pat|] == pat
  }

  /** Python's `pat in s` on two strings. */
  function Contains(s: string, pat: string): bool
    decreases |s|
  {
    if pat <= s then true
    else if s == [] then false
    else Contains(s[1..], pat)
  }

  /** `Contains` holds exactly when the pattern occurs at some index. */
  lemma {:induction false} ContainsIff(s: string, pat: string)
    ensures Contains(s, pat) <==> exists i: nat :: OccursAt(pat, s, i)
    decreases |s|
  {
    if pat <= s {
      assert OccursAt(pat, s, 0);
    } else if s == [] {
    } else {
      ContainsIff(s[1..], pat);
      if Contains(s[1..], pat) {
        var i: nat :| OccursAt(pat, s[1..], i);
        assert s[1..][i..i + |pat|] == s[i + 1..i + 1 + |pat|];
        assert OccursAt(pat, s, i + 1);
      } else {
        forall i: nat | OccursAt(pat, s, i) ensures false {
          if i > 0 {
            assert s[1..][i - 1..i - 1 + |pat|] == s[i..i + |pat|];
            assert OccursAt(pat, s[1..], i - 1);
          }
        }
      }
    }
  }

  /** An occurrence in a prefix is an occurrence in the whole string. */
  lemma ContainsExtend(s: string, t: string, pat: string)
    requires Contains(s, pat)
    ensures Contains(s + t, pat)
  {
    ContainsIff(s, pat);
    var i: nat :| OccursAt(pat, s, i);
    assert (s + t)[i..i + |pat|] == s[i..i + |pat|];
    assert OccursAt(pat, s + t, i);
    ContainsIff(s + t, pat);
  }
}

=== FILE: filesystem.dfy ===
/**
 * The filesystem as the script sees it: which paths exist as directories,
 * which as plain files, and which zip archives the script itself wrote
 * (with the relative paths they hold).  Each library call the script makes
 * (`os.mkdir`, `os.makedirs`, `zipfile.extractall`, `shutil.copy`,
 * `shutil.rmtree`, `os.rename`, `shutil.make_archive`) is a pure effect on
 * this value, and a method of the `FileSystem` class that applies it.
 * File contents are not modelled.
 */
module FileSystem {
  import opened Common

  /** The library errors the script does not catch. */
  datatype OsError =
    | BadZipFile(path: Path)
    | FileNotFound(path: Path)
    | FileExists(path: Path)
    | NotADirectory(path: Path)

  datatype Fs = Fs(dirs: set<Path>, files: set<Path>, zips: map<Path, set<Path>>)

  /** The result of one library call: the new filesystem and the error raised, if any. */
  datatype Effect = Effect(fs: Fs, err: Option<OsError>)

  /** `os.path.exists`. */
  predicate Exists(fs: Fs, p: Path)
  {
    p in fs.dirs || p in fs.files || p in fs.zips
  }

  /** Every existing path at or below `p`. */
  function Under(fs: Fs, p: Path): set<Path>
  {
    set q | q in fs.dirs + fs.files + fs.zips.Keys && p <= q
  }

  /** `p` and every directory above it. */
  function Ancestors(p: Path): (a: set<Path>)
    ensures |p| > 0 ==> p in a
    ensures forall q :: q in a ==> q <= p && q != []
    ensures forall k :: 1 <= k <= |p| ==> p[..k] in a
  {
    assert |p| > 0 ==> p[..|p|] == p;
    set k | 1 <= k <= |p| :: p[..k]
  }

  /** `os.mkdir`: fails on an existing path or a missing parent directory. */
  function Mkdir(fs: Fs, p: Path): (e: Effect)
    ensures e.err.None? <==> !Exists(fs, p) && |p| > 0 && p[..|p| - 1] in fs.dirs
    ensures e.err.None? ==> e.fs.dirs == fs.dirs + {p} && e.fs.files == fs.files && e.fs.zips == fs.zips
    ensures e.err.Some? ==> e.fs == fs
  {
    if Exists(fs, p) then Effect(fs, Some(FileExists(p)))
    else if |p| == 0 || p[..|p| - 1] !in fs.dirs then Effect(fs, Some(FileNotFound(p)))
    else Effect(fs.(dirs := fs.dirs + {p}), None)
  }

  /** `os.makedirs`: creates `p` and any missing parents; fails when `p` exists. */
  function MakeDirs(fs: Fs, p: Path): (e: Effect)
    ensures e.err.None? <==> !Exists(fs, p)
    ensures e.err.None? ==> e.fs.dirs == fs.dirs + Ancestors(p) && e.fs.files == fs.files && e.fs.zips == fs.zips
    ensures e.err.Some? ==> e.fs == fs
  {
    if Exists(fs, p) then Effect(fs, Some(FileExists(p)))
    else Effect(fs.(dirs := fs.dirs + Ancestors(p)), None)
  }

  /**
   * `zipfile.ZipFile(archive).extractall(dest)`: the members are given by
   * their base names (the archive's inner folders are flattened), or are
   * None when the file is not a zip archive.  The target folder is created
   * only while a member is written, so an archive without members leaves
   * the filesystem as it was.
   */
  function ExtractAll(fs: Fs, archive: Path, members: Option<seq<string>>, dest: Path): (e: Effect)
    ensures e.err.Some? <==> members.None?
    ensures e.err.None? && members.value != [] ==> e.fs.dirs == fs.dirs + {dest} && e.fs.zips == fs.zips
    ensures e.err.None? ==> e.fs.files == fs.files + set m | m in members.value :: dest + [m]
    ensures e.err.Some? || members.value == [] ==> e.fs == fs
  {
    match members
    case None => Effect(fs, Some(BadZipFile(archive)))
    case Some(ms) =>
      if ms == [] then Effect(fs, None)
      else Effect(Fs(fs.dirs + {dest}, fs.files + set m | m in ms :: dest + [m], fs.zips), None)
  }

  /** `shutil.copy` to `dst`: the destination file exists afterwards. */
  function Copy(fs: Fs, dst: Path): (r: Fs)
    ensures r.files == fs.files + {dst} && r.dirs == fs.dirs && r.zips == fs.zips
  {
    fs.(files := fs.files + {dst})
  }

  /** What a successful `shutil.rmtree` leaves: nothing at or below `p` remains; everything else is kept. */
  function RemoveTree(fs: Fs, p: Path): (r: Fs)
    ensures Under(r, p) == {}
    ensures forall q :: !(p <= q) ==> (q in r.dirs <==> q in fs.dirs)
    ensures forall q :: !(p <= q) ==> (q in r.files <==> q in fs.files)
    ensures forall q :: !(p <= q) ==> (q in r.zips <==> q in fs.zips) && (q in r.zips ==> r.zips[q] == fs.zips[q])
  {
    Fs(set q | q in fs.dirs && !(p <= q),
       set q | q in fs.files && !(p <= q),
       map q | q in fs.zips && !(p <= q) :: fs.zips[q])
  }

  /**
   * `shutil.rmtree`: raises on a path that does not exist or is not a
   * directory, and otherwise removes the tree.
   */
  function RmTree(fs: Fs, p: Path): (e: Effect)
    ensures e.err.None? <==> p in fs.dirs
    ensures !Exists(fs, p) ==> e.err == Some(FileNotFound(p))
    ensures e.err.None? ==> Under(e.fs, p) == {} && e.fs == RemoveTree(fs, p)
    ensures e.err.Some? ==> e.fs == fs
  {
    if !Exists(fs, p) then Effect(fs, Some(FileNotFound(p)))
    else if p !in fs.dirs then Effect(fs, Some(NotADirectory(p)))
    else Effect(RemoveTree(fs, p), None)
  }

  /**
   * `os.rename` of a file, with the Windows rule that the destination must
   * not exist.
   */
  function MoveFile(fs: Fs, src: Path, dst: Path): (e: Effect)
    ensures e.err.None? <==> src in fs.files && !Exists(fs, dst)
    ensures e.err.None? ==> e.fs.files == fs.files - {src} + {dst} && e.fs.dirs == fs.dirs && e.fs.zips == fs.zips
    ensures e.err.Some? ==> e.fs == fs
  {
    if src !in fs.files then Effect(fs, Some(FileNotFound(src)))
    else if Exists(fs, dst) then Effect(fs, Some(FileExists(dst)))
    else Effect(fs.(files := fs.files - {src} + {dst}), None)
  }

  /** The files strictly below `root`: what `os.walk(root)` lists. */
  function FilesUnder(fs: Fs, root: Path): set<Path>
  {
    set q | q in fs.files && root < q
  }

  /** The paths of the files below `root`, relative to it. */
  function FilesBelow(fs: Fs, root: Path): (r: set<Path>)
    ensures forall q :: q in fs.files && root < q ==> q[|root|..] in r
  {
    set q | q in FilesUnder(fs, root) :: q[|root|..]
  }

  /** `shutil.make_archive` of `root` into the zip file `archive`, replacing any earlier one. */
  function MakeArchive(fs: Fs, root: Path, archive: Path): (r: Fs)
    ensures archive in r.zips && r.zips[archive] == FilesBelow(fs, root)
    ensures r.zips.Keys == fs.zips.Keys + {archive}
    ensures r.dirs == fs.dirs && r.files == fs.files
    ensures forall q :: q in fs.zips && q != archive ==> q in r.zips && r.zips[q] == fs.zips[q]
  {
    fs.(zips := fs.zips[archive := FilesBelow(fs, root)])
  }

  /** The live filesystem, changed in place by the library calls. */
  class FileSystem {
    var dirs: set<Path>
    var files: set<Path>
    var zips: map<Path, set<Path>>

    function State(): Fs
      reads this
    {
      Fs(dirs, files, zips)
    }

    constructor (init: Fs)
      ensures State() == init
    {
      dirs, files, zips := init.dirs, init.files, init.zips;
    }

    function PathExists(p: Path): (b: bool)
      reads this
      ensures b == Exists(State(), p)
    {
      p in dirs || p in files || p in zips
    }

    method MakeDir(p: Path) returns (err: Option<OsError>)
      modifies this
      ensures Effect(State(), err) == Mkdir(old(State()), p)
    {
      var e := Mkdir(State(), p);
      dirs, files, zips, err := e.fs.dirs, e.fs.files, e.fs.zips, e.err;
    }

    method MakeDirectories(p: Path) returns (err: Option<OsError>)
      modifies this
      ensures Effect(State(), err) == MakeDirs(old(State()), p)
    {
      err := if PathExists(p) then Some(FileExists(p)) else None;
      if err.None? {
        dirs := dirs + Ancestors(p);
      }
    }

    method Extract(archive: Path, members: Option<seq<string>>, dest: Path) returns (err: Option<OsError>)
      modifies this
      ensures Effect(State(), err) == ExtractAll(old(State()), archive, members, dest)
    {
      if members.None? {
        return Some(BadZipFile(archive));
      }
      err := None;
      if members.value == [] {
        return;
      }
      dirs := dirs + {dest};
      files := files + set m | m in members.value :: dest + [m];
    }

    method CopyFile(dst: Path)
      modifies this
      ensures State() == Copy(old(State()), dst)
    {
      files := files + {dst};
    }

    method RemoveDirectoryTree(p: Path) returns (err: Option<OsError>)
      modifies this
      ensures Effect(State(), err) == RmTree(old(State()), p)
    {
      if !PathExists(p) {
        return Some(FileNotFound(p));
      }
      if p !in dirs {
        return Some(NotADirectory(p));
      }
      var r := RemoveTree(State(), p);
      dirs, files, zips, err := r.dirs, r.files, r.zips, None;
    }

    method RenameFile(src: Path, dst: Path) returns (err: Option<OsError>)
      modifies this
      ensures Effect(State(), err) == MoveFile(old(State()), src, dst)
    {
      if src !in files {
        return Some(FileNotFound(src));
      }
      if PathExists(dst) {
        return Some(FileExists(dst));
      }
      files := files - {src} + {dst};
      err := None;
    }

    method Archive(root: Path, archive: Path)
      modifies this
      ensures State() == MakeArchive(old(State()), root, archive)
    {
      zips := zips[archive := FilesBelow(State(), root)];
    }
  }
}

=== FILE: menu.dfy ===
/**
 * The start-up menu: the rule that decides when the re-prompt loop stops,
 * the loop itself over the operator's successive answers, and the dispatch
 * that follows on the raw answer.
 */
module Menu {
  import opened Common

  predicate IsDigit(c: char)
  {
    '0' <= c <= '9'
  }

  /** `str.isnumeric`, restricted to ASCII: non-empty and every character a digit. */
  predicate IsNumeric(s: string)
  {
    |s| > 0 && forall i :: 0 <= i < |s| ==> IsDigit(s[i])
  }

  /** `int(s)` on a string of ASCII digits. */
  function DecimalValue(s: string): nat
    requires forall i :: 0 <= i < |s| ==> IsDigit(s[i])
  {
    if s == [] then 0
    else
      assert IsDigit(s[|s| - 1]);
      10 * DecimalValue(s[..|s| - 1]) + (s[|s| - 1] as int - '0' as int)
  }

  function LowerChar(c: char): char
  {
    if 'A' <= c <= 'Z' then (c as int - 'A' as int + 'a' as int) as char else c
  }

  /** `str.lower`, restricted to ASCII letters. */
  function Lower(s: string): (r: string)
    ensures |r| == |s|
    ensures forall i :: 0 <= i < |s| ==> r[i] == LowerChar(s[i])
  {
    seq(|s|, i requires 0 <= i < |s| => LowerChar(s[i]))
  }

  /** Line 51: `choice.lower() == 'q'`. */
  predicate IsQuit(choice: string)
  {
    Lower(choice) == "q"
  }

  /** Line 46: the answers that end the re-prompt loop (the negation of its guard). */
  predicate Accepted(choice: string)
  {
    IsQuit(choice) || (IsNumeric(choice) && DecimalValue(choice) in {1, 2})
  }

  /** Only "q" and "Q" quit. */
  lemma IsQuitIff(choice: string)
    ensures IsQuit(choice) <==> choice == "q" || choice == "Q"
  {
    if IsQuit(choice) {
      assert |choice| == 1 && LowerChar(choice[0]) == 'q';
      assert choice == [choice[0]];
    }
  }

  /** `s` is some number (possibly none) of '0' characters followed by digit `d`. */
  predicate ZeroPadded(s: string, d: char)
  {
    |s| >= 1 && s[|s| - 1] == d && forall i :: 0 <= i < |s| - 1 ==> s[i] == '0'
  }

  /** A digit string has value 0 exactly when every digit is '0'. */
  lemma {:induction false} ValueZeroIff(s: string)
    requires forall i :: 0 <= i < |s| ==> IsDigit(s[i])
    ensures DecimalValue(s) == 0 <==> forall i :: 0 <= i < |s| ==> s[i] == '0'
    decreases |s|
  {
    if s != [] {
      var init := s[..|s| - 1];
      ValueZeroIff(init);
      assert forall i :: 0 <= i < |init| ==> init[i] == s[i];
    }
  }

  /** A digit string has a one-digit value `v` > 0 exactly when it is `v`'s digit padded with zeros. */
  lemma ValueSmallIff(s: string, v: nat)
    requires IsNumeric(s) && 1 <= v <= 9
    ensures DecimalValue(s) == v <==> ZeroPadded(s, ('0' as int + v) as char)
  {
    var init := s[..|s| - 1];
    assert forall i :: 0 <= i < |init| ==> init[i] == s[i];
    ValueZeroIff(init);
  }

  /**
   * The loop of lines 46-49 stops exactly on "q", "Q", or a digit string
   * that is "1" or "2" after any number of leading zeros.
   */
  lemma AcceptedIff(choice: string)
    ensures Accepted(choice) <==>
              choice == "q" || choice == "Q" ||
              ZeroPadded(choice, '1') || ZeroPadded(choice, '2')
  {
    IsQuitIff(choice);
    if IsNumeric(choice) {
      ValueSmallIff(choice, 1);
      ValueSmallIff(choice, 2);
    }
    if ZeroPadded(choice, '1') || ZeroPadded(choice, '2') {
      assert IsNumeric(choice);
    }
  }

  /** Which branch of the script runs after the menu (lines 51, 56 and 106). */
  datatype Branch = Quit | SetUpWorkingEnvironment | CreateDeliverablePackage | NoBranch

  /**
   * The dispatch: quitting is case-insensitive, but the two stages are
   * chosen by comparing the raw answer with "1" and "2".
   */
  function Dispatch(choice: string): (b: Branch)
    ensures b == Quit <==> IsQuit(choice)
    ensures b == SetUpWorkingEnvironment <==> choice == "1"
    ensures b == CreateDeliverablePackage <==> choice == "2"
  {
    IsQuitIff(choice);
    if IsQuit(choice) then Quit
    else if choice == "1" then SetUpWorkingEnvironment
    else if choice == "2" then CreateDeliverablePackage
    else NoBranch
  }

  /**
   * An accepted answer runs no stage exactly when it is "1" or "2" with at
   * least one leading zero: such answers pass the loop of line 46 but match
   * neither comparison at lines 56 and 106.
   */
  lemma PaddedChoiceRunsNoBranch(choice: string)
    ensures Accepted(choice) && Dispatch(choice) == NoBranch <==>
              |choice| >= 2 && (ZeroPadded(choice, '1') || ZeroPadded(choice, '2'))
  {
    AcceptedIff(choice);
    if |choice| == 1 && (ZeroPadded(choice, '1') || ZeroPadded(choice, '2')) {
      assert choice == [choice[0]];
    }
  }

  /** "01" and "002" are accepted and then run nothing. */
  lemma LeadingZeroExamples()
    ensures Accepted("01") && Dispatch("01") == NoBranch
    ensures Accepted("002") && Dispatch("002") == NoBranch
  {
    PaddedChoiceRunsNoBranch("01");
    PaddedChoiceRunsNoBranch("002");
  }

  /**
   * Lines 41-49: the operator's answers, in order, are read until one is
   * accepted.  The result is the index of the first accepted answer, or None
   * when the answers run out first (where `input()` would raise).
   */
  method ReadChoice(answers: seq<string>) returns (k: Option<nat>)
    ensures k.Some? ==> k.value < |answers| && Accepted(answers[k.value])
    ensures k.Some? ==> forall j :: 0 <= j < k.value ==> !Accepted(answers[j])
    ensures k.None? <==> forall j :: 0 <= j < |answers| ==> !Accepted(answers[j])
  {
    if |answers| == 0 {
      return None;
    }
    var i := 0;
    var choice := answers[0];
    while !Accepted(choice)
      invariant 0 <= i < |answers| && choice == answers[i]
      invariant forall j :: 0 <= j < i ==> !Accepted(answers[j])
      decreases |answers| - i
    {
      if i + 1 == |answers| {
        return None;
      }
      i := i + 1;
      choice := answers[i];
    }
    return Some(i);
  }
}

=== FILE: names.dfy ===
/**
 * The file and directory names the helper script derives from a filename,
 * a job number and a date: the `os.path.splitext` split of a bare filename,
 * the allow-list of deliverable shapefiles, the deliverable rename, and the
 * three names built while setting up a job.
 */
module Names {
  import opened Common

  /** The stems of the design tool's outputs that go into a deliverable. */
  const DeliverableShapefiles: seq<string> :=
    ["OUT_AccessStructures",
     "OUT_Closures",
     "OUT_DistributionCables",
     "OUT_DropCables",
     "OUT_DropClusters",
     "OUT_FeederCables"]

  predicate NoDot(s: string)
  {
    forall k :: 0 <= k < |s| ==> s[k] != '.'
  }

  predicate AllDots(s: string)
  {
    forall k :: 0 <= k < |s| ==> s[k] == '.'
  }

  /** A possible extension: empty, or one dot followed by no further dot. */
  predicate IsExtension(e: string)
  {
    e == [] || (e[0] == '.' && NoDot(e[1..]))
  }

  /** The index of the last '.' in `s`, if there is one. */
  function LastDot(s: string): (r: Option<nat>)
    ensures r.None? ==> NoDot(s)
    ensures r.Some? ==> r.value < |s| && s[r.value] == '.'
    ensures r.Some? ==> forall k :: r.value < k < |s| ==> s[k] != '.'
  {
    if s == [] then None
    else if s[|s| - 1] == '.' then Some(|s| - 1)
    else LastDot(s[..|s| - 1])
  }

  /**
   * The first half of `os.path.splitext` on a bare filename (no separator):
   * everything before the last dot, unless every character before that dot
   * is itself a dot (".shp" and "..x" have no extension).
   */
  function Stem(name: string): (stem: string)
    ensures stem <= name
    ensures stem != name ==>
              name[|stem|] == '.' && forall k :: |stem| < k < |name| ==> name[k] != '.'
  {
    match LastDot(name)
    case None => name
    case Some(d) => if AllDots(name[..d]) then name else name[..d]
  }

  /** The stem is shorter than the name exactly when a dot follows some non-dot character. */
  lemma StemIff(name: string)
    ensures Stem(name) != name <==>
              exists i, k :: 0 <= k < i < |name| && name[i] == '.' && name[k] != '.'
  {
  }

  /** The second half of `os.path.splitext`: the extension, dot included. */
  function Ext(name: string): (e: string)
    ensures Stem(name) + e == name
    ensures IsExtension(e)
    ensures e == [] <==> Stem(name) == name
  {
    name[|Stem(name)|..]
  }

  /** A name with a non-dot character, followed by a non-empty extension, splits there. */
  lemma StemSplit(a: string, e: string)
    requires !AllDots(a)
    requires IsExtension(e) && e != []
    ensures Stem(a + e) == a && Ext(a + e) == e
  {
    var n := a + e;
    var k :| 0 <= k < |a| && a[k] != '.';
    assert n[k] != '.' && n[|a|] == '.';
    var stem := Stem(n);
    assert stem != n;
    assert |stem| == |a|;
    assert stem == n[..|a|] == a;
  }

  /** A name with no dot at all is its own stem. */
  lemma StemNoDot(a: string)
    requires NoDot(a)
    ensures Stem(a) == a && Ext(a) == []
  {
  }

  /** What every allow-listed name shares: no dot, the prefix "OUT_", twelve characters or more. */
  lemma AllowListShape(k: nat)
    requires k < |DeliverableShapefiles|
    ensures NoDot(DeliverableShapefiles[k])
    ensures "OUT_" <= DeliverableShapefiles[k] && |DeliverableShapefiles[k]| >= 12
  {
    var d := DeliverableShapefiles[k];
    if k == 0 { assert d == "OUT_AccessStructures"; }
    else if k == 1 { assert d == "OUT_Closures"; }
    else if k == 2 { assert d == "OUT_DistributionCables"; }
    else if k == 3 { assert d == "OUT_DropCables"; }
    else if k == 4 { assert d == "OUT_DropClusters"; }
    else { assert d == "OUT_FeederCables"; }
  }

  /** Line 129: a file is copied when its stem is one of the allow-listed names. */
  predicate IsDeliverable(name: string)
  {
    exists k :: 0 <= k < |DeliverableShapefiles| && DeliverableShapefiles[k] == Stem(name)
  }

  /** An allow-listed name followed by nothing or by an extension has that name as its stem. */
  lemma AllowListedStem(name: string, k: nat)
    requires k < |DeliverableShapefiles|
    requires DeliverableShapefiles[k] <= name && IsExtension(name[|DeliverableShapefiles[k]|..])
    ensures Stem(name) == DeliverableShapefiles[k]
  {
    var d := DeliverableShapefiles[k];
    var e := name[|d|..];
    assert name == d + e;
    AllowListShape(k);
    assert d[0] == 'O';
    if e == [] {
      StemNoDot(d);
    } else {
      StemSplit(d, e);
    }
  }

  /**
   * A file is a deliverable exactly when it is an allow-listed name followed
   * by an extension (one dot, no further dot) or by nothing.
   */
  lemma DeliverableIff(name: string)
    ensures IsDeliverable(name) <==>
              exists k :: 0 <= k < |DeliverableShapefiles| &&
                DeliverableShapefiles[k] <= name &&
                IsExtension(name[|DeliverableShapefiles[k]|..])
  {
    var ds := DeliverableShapefiles;
    if IsDeliverable(name) {
      var k :| 0 <= k < |ds| && ds[k] == Stem(name);
      assert ds[k] <= name && IsExtension(name[|ds[k]|..]);
    }
    if exists k :: 0 <= k < |ds| && ds[k] <= name && IsExtension(name[|ds[k]|..]) {
      var k :| 0 <= k < |ds| && ds[k] <= name && IsExtension(name[|ds[k]|..]);
      AllowListedStem(name, k);
    }
  }

  /** A sidecar such as "OUT_Closures.shp.xml" has stem "OUT_Closures.shp" and is not copied. */
  lemma SidecarIsNotDeliverable()
    ensures Stem("OUT_Closures.shp.xml") == "OUT_Closures.shp"
    ensures !IsDeliverable("OUT_Closures.shp.xml")
    ensures IsDeliverable("OUT_Closures.shp")
  {
    var sidecar, shp := "OUT_Closures.shp.xml", "OUT_Closures.shp";
    assert !AllDots(shp) by { assert shp[0] == 'O'; }
    assert NoDot("xml") && NoDot("shp");
    assert shp + ".xml" == sidecar;
    StemSplit(shp, ".xml");
    assert !AllDots("OUT_Closures") by { assert "OUT_Closures"[0] == 'O'; }
    assert "OUT_Closures" + ".shp" == shp;
    StemSplit("OUT_Closures", ".shp");
    assert DeliverableShapefiles[1] == "OUT_Closures";
    forall k | 0 <= k < |DeliverableShapefiles| ensures DeliverableShapefiles[k] != shp {
      AllowListShape(k);
      assert shp[12] == '.';
    }
  }

  /** Every deliverable starts with "OUT_", so the rename always keeps "OUT". */
  lemma DeliverableHasOutPrefix(name: string)
    requires IsDeliverable(name)
    ensures "OUT_" <= name && |name| >= 12
  {
    var k :| 0 <= k < |DeliverableShapefiles| && DeliverableShapefiles[k] == Stem(name);
    AllowListShape(k);
  }

  /**
   * Line 134: `name[:3] + "_" + job + name[3:]`, with Python's clamped slicing
   * for names shorter than three characters.
   */
  function Rename(name: string, job: string): (r: string)
    ensures |r| == |name| + |job| + 1
    ensures var h := if |name| < 3 then |name| else 3;
      && name[..h] <= r
      && r[h] == '_'
      && r[h + 1..h + 1 + |job|] == job
      && r[h + 1 + |job|..] == name[h..]
  {
    var h := if |name| < 3 then |name| else 3;
    name[..h] + "_" + job + name[h..]
  }

  /** Undoes `Rename` for a job number of the given length. */
  function Unrename(r: string, jobLength: nat): (name: string)
    requires |r| >= 4 + jobLength
    ensures |name| == |r| - jobLength - 1
  {
    r[..3] + r[4 + jobLength..]
  }

  /** Renaming loses nothing on names of three or more characters. */
  lemma UnrenameRename(name: string, job: string)
    requires |name| >= 3
    ensures |Rename(name, job)| >= 4 + |job|
    ensures Unrename(Rename(name, job), |job|) == name
  {
    var r := Rename(name, job);
    assert r[..3] == name[..3];
    assert name == name[..3] + name[3..];
  }

  /** Different names are renamed apart for one job. */
  lemma RenameInjective(a: string, b: string, job: string)
    ensures Rename(a, job) == Rename(b, job) <==> a == b
  {
    var r := Rename(a, job);
    if r == Rename(b, job) {
      assert |a| == |b|;
      if |a| >= 3 {
        UnrenameRename(a, job);
        UnrenameRename(b, job);
      } else {
        assert a == r[..|a|] == b;
      }
    }
  }

  /**
   * A renamed deliverable reads "OUT_" + job + "_" + the rest of the name,
   * and, for a job number without a dot, keeps its extension.
   */
  lemma RenameDeliverable(name: string, job: string)
    requires IsDeliverable(name)
    ensures "OUT_" + job + "_" <= Rename(name, job)
    ensures Rename(name, job)[5 + |job|..] == name[4..]
  {
    DeliverableHasOutPrefix(name);
    var r := Rename(name, job);
    assert name[3] == '_';
    assert r[..4 + |job|] == "OUT_" + job;
    assert r[4 + |job|] == '_';
    assert r[5 + |job|..] == name[4..] by {
      assert r[4 + |job|..] == name[3..];
    }
  }

  /** Renaming a dot-free name by a dot-free job number gives a dot-free name. */
  lemma RenameNoDot(s: string, job: string)
    requires NoDot(s) && NoDot(job)
    ensures NoDot(Rename(s, job))
  {
    var rs := Rename(s, job);
    var h := if |s| < 3 then |s| else 3;
    forall i | 0 <= i < |rs| ensures rs[i] != '.' {
      if i < h {
        assert rs[i] == s[..h][i];
      } else if h < i < h + 1 + |job| {
        assert rs[i] == rs[h + 1..h + 1 + |job|][i - h - 1];
      } else if i >= h + 1 + |job| {
        assert rs[i] == rs[h + 1 + |job|..][i - h - 1 - |job|];
      }
    }
  }

  /** Renaming acts on the first three characters only, so a suffix passes through. */
  lemma RenameAppend(s: string, e: string, job: string)
    requires |s| >= 3
    ensures Rename(s + e, job) == Rename(s, job) + e
  {
    assert (s + e)[..3] == s[..3];
    assert (s + e)[3..] == s[3..] + e;
  }

  /**
   * For a job number without a dot, a renamed deliverable keeps its
   * extension, and its stem is the renamed stem.
   */
  lemma RenameKeepsExtension(name: string, job: string)
    requires IsDeliverable(name) && NoDot(job)
    ensures Ext(Rename(name, job)) == Ext(name)
    ensures Stem(Rename(name, job)) == Rename(Stem(name), job)
  {
    var k :| 0 <= k < |DeliverableShapefiles| && DeliverableShapefiles[k] == Stem(name);
    var s, e := Stem(name), Ext(name);
    AllowListShape(k);
    RenameNoDot(s, job);
    var rs := Rename(s, job);
    RenameAppend(s, e, job);
    if e == [] {
      StemNoDot(rs);
    } else {
      assert rs[0] == 'O';
      StemSplit(rs, e);
    }
  }

  /** Line 66: the directory an archive is extracted into. */
  function TempName(download: string): (t: string)
    ensures Stem(download) <= t
    ensures t[|Stem(download)|..] == "_tmp"
  {
    Stem(download) + "_tmp"
  }

  /** Line 104: the name an archive is given once it has been processed. */
  function MarkerName(download: string): (m: string)
    ensures |m| == |Stem(download)| + 5
  {
    Stem(download) + "_.zip"
  }

  /** The processed marker splits into the old stem plus "_" and the extension ".zip". */
  lemma {:induction false} MarkerSplits(download: string)
    ensures Stem(MarkerName(download)) == Stem(download) + "_"
    ensures Ext(MarkerName(download)) == ".zip"
    ensures MarkerName(download) != download
  {
    var a := Stem(download) + "_";
    assert !AllDots(a) by { assert a[|a| - 1] == '_'; }
    assert a + ".zip" == MarkerName(download);
    StemSplit(a, ".zip");
  }

  /**
   * A job number found in the stem survives in the temporary and the marker
   * names: the "processed" marker does not stop the archive matching again.
   */
  lemma JobSurvivesInDerivedNames(download: string, job: string)
    requires Contains(Stem(download), job)
    ensures Contains(TempName(download), job)
    ensures Contains(MarkerName(download), job)
  {
    ContainsExtend(Stem(download), "_tmp", job);
    ContainsExtend(Stem(download), "_.zip", job);
  }

  /** Lines 80 and 115: the date-stamped name of a job's directories. */
  function JobDirName(date: string, job: string): (n: string)
    ensures |n| == |date| + 1 + |job|
    ensures date <= n && n[|date|] == '-' && n[|date| + 1..] == job
  {
    date + "-" + job
  }

  /** The index of the first '-' in `s`, if there is one. */
  function FirstDash(s: string): (r: Option<nat>)
    ensures r.None? ==> '-' !in s
    ensures r.Some? ==> r.value < |s| && s[r.value] == '-' && '-' !in s[..r.value]
  {
    if s == [] then None
    else if s[0] == '-' then Some(0)
    else match FirstDash(s[1..])
      case None => None
      case Some(i) => Some(i + 1)
  }

  /** Reads a job directory name back into its date and job number. */
  function SplitJobDirName(n: string): Option<(string, string)>
  {
    match FirstDash(n)
    case None => None
    case Some(i) => Some((n[..i], n[i + 1..]))
  }

  /** A date without '-' (such as YYYYMMDD) is recovered from the job directory name. */
  lemma SplitJobDirNameRoundTrip(date: string, job: string)
    requires '-' !in date
    ensures SplitJobDirName(JobDirName(date, job)) == Some((date, job))
  {
    var n := JobDirName(date, job);
    assert n[|date|] == '-';
    var i := FirstDash(n).value;
    assert n[..i] == date;
  }

  /** With such dates, two job directory names are equal only for the same date and job. */
  lemma JobDirNameInjective(d1: string, j1: string, d2: string, j2: string)
    requires '-' !in d1 && '-' !in d2
    ensures JobDirName(d1, j1) == JobDirName(d2, j2) <==> d1 == d2 && j1 == j2
  {
    SplitJobDirNameRoundTrip(d1, j1);
    SplitJobDirNameRoundTrip(d2, j2);
  }
}

=== FILE: package.dfy ===
/**
 * Menu choice 2, "create deliverable package" (lines 106-147): the output
 * directory `Deliverables/<state>/<city>/<date>-<job>` on the desktop is
 * created, every allow-listed shapefile part found below the design tool's
 * output path is copied into it under its renamed name, and the copies are
 * counted; exactly 30 copies make the archive and remove the directory.
 *
 * `Package` states what the stage does as a function of the filesystem
 * before it; `CreateDeliverablePackage` does it in place on a `FileSystem`.
 */
module Package {
  import opened Common
  import opened Names
  import opened FileSystem

  /** Line 142: the number of copies that releases the archive (six shapefiles of five parts each). */
  const ExpectedCopies: nat := 30

  /** One directory of `os.walk(input_path)`, with the file names it lists. */
  datatype WalkDir = WalkDir(root: Path, files: seq<string>)

  /** A file of the walk together with the directory it was found in. */
  datatype Found = Found(root: Path, name: string)

  /** The desktop root, the operator's answers and the date of the run. */
  datatype PackageConfig = PackageConfig(desktop: Path, state: string, city: string, date: string, job: string)

  /**
   * What the stage leaves behind: the filesystem, the copy counter, whether
   * the output path already existed (the message of line 120), whether
   * the archive was made, and the error `rmtree` raised at line 145, if any.
   */
  datatype PackageResult = PackageResult(fs: Fs, copied: nat, conflict: bool, archived: bool, error: Option<OsError>)

  /** Lines 113-115: the output directory. */
  function OutputPath(cfg: PackageConfig): (p: Path)
    ensures cfg.desktop <= p && |p| == |cfg.desktop| + 4
    ensures p[|p| - 1] == JobDirName(cfg.date, cfg.job)
  {
    cfg.desktop + ["Deliverables", cfg.state, cfg.city, JobDirName(cfg.date, cfg.job)]
  }

  /**
   * Lines 143-144: `make_archive` is given `<output path>.zip` as the base
   * name and appends its own ".zip", so the archive is `<output path>.zip.zip`,
   * beside the output directory.
   */
  function ArchivePath(cfg: PackageConfig): (p: Path)
    ensures |p| == |OutputPath(cfg)| && p[..|p| - 1] == OutputPath(cfg)[..|p| - 1]
    ensures p[|p| - 1] == OutputPath(cfg)[|p| - 1] + ".zip.zip"
  {
    cfg.desktop + ["Deliverables", cfg.state, cfg.city, JobDirName(cfg.date, cfg.job) + ".zip.zip"]
  }

  /** Line 129: the files of one directory that are deliverable parts, in order. */
  function SelectedIn(root: Path, files: seq<string>): seq<Found>
  {
    if files == [] then []
    else
      var last := files[|files| - 1];
      SelectedIn(root, files[..|files| - 1]) + (if IsDeliverable(last) then [Found(root, last)] else [])
  }

  /** Lines 127-129: the deliverable parts of the whole walk, directory by directory. */
  function Selected(walk: seq<WalkDir>): seq<Found>
  {
    if walk == [] then []
    else
      var last := walk[|walk| - 1];
      Selected(walk[..|walk| - 1]) + SelectedIn(last.root, last.files)
  }

  /** Lines 134-137: where a selected file is copied to. */
  function Destination(out: Path, job: string, f: Found): Path
  {
    out + [Rename(f.name, job)]
  }

  /** The paths the copies of lines 139 write. */
  function Destinations(out: Path, job: string, found: seq<Found>): set<Path>
  {
    set f | f in found :: Destination(out, job, f)
  }

  /** Lines 127-140: the filesystem after every selected file has been copied. */
  function Copied(fs: Fs, out: Path, job: string, found: seq<Found>): (r: Fs)
    ensures r.dirs == fs.dirs && r.zips == fs.zips
  {
    fs.(files := fs.files + Destinations(out, job, found))
  }

  /**
   * Lines 107-147.  An existing output path is reported and the stage goes
   * on regardless; `makedirs` cannot fail on a path that does not exist.
   * The removal of line 145 raises only when the output path existed as
   * something other than a directory.
   */
  function Package(fs: Fs, cfg: PackageConfig, walk: seq<WalkDir>): PackageResult
  {
    var out := OutputPath(cfg);
    var conflict := Exists(fs, out);
    var made := if conflict then fs else MakeDirs(fs, out).fs;
    var found := Selected(walk);
    var copied := Copied(made, out, cfg.job, found);
    if |found| == ExpectedCopies then
      var rm := RmTree(MakeArchive(copied, out, ArchivePath(cfg)), out);
      PackageResult(rm.fs, |found|, conflict, true, rm.err)
    else
      PackageResult(copied, |found|, conflict, false, None)
  }

  /** A file of one directory is selected exactly when it is listed there and is a deliverable part. */
  lemma {:induction false} SelectedInIff(root: Path, files: seq<string>, f: Found)
    ensures f in SelectedIn(root, files) <==> f.root == root && f.name in files && IsDeliverable(f.name)
  {
    if files != [] {
      var init := files[..|files| - 1];
      SelectedInIff(root, init, f);
      assert files == init + [files[|files| - 1]];
    }
  }

  /** Some directory of the walk lists `f`. */
  predicate Listed(walk: seq<WalkDir>, f: Found)
  {
    exists i :: 0 <= i < |walk| && walk[i].root == f.root && f.name in walk[i].files
  }

  lemma ListedSnoc(walk: seq<WalkDir>, f: Found)
    requires walk != []
    ensures var last := walk[|walk| - 1];
      Listed(walk, f) <==> Listed(walk[..|walk| - 1], f) || (last.root == f.root && f.name in last.files)
  {
    var init := walk[..|walk| - 1];
    if Listed(walk, f) {
      var i :| 0 <= i < |walk| && walk[i].root == f.root && f.name in walk[i].files;
      if i < |init| {
        assert init[i] == walk[i];
      }
    }
    if Listed(init, f) {
      var i :| 0 <= i < |init| && init[i].root == f.root && f.name in init[i].files;
      assert walk[i] == init[i];
    }
  }

  /** A file is selected exactly when some directory of the walk lists it and it is a deliverable part. */
  lemma {:induction false} SelectedIff(walk: seq<WalkDir>, f: Found)
    ensures f in Selected(walk) <==> IsDeliverable(f.name) && Listed(walk, f)
  {
    if walk != [] {
      var last := walk[|walk| - 1];
      SelectedIff(walk[..|walk| - 1], f);
      SelectedInIff(last.root, last.files, f);
      ListedSnoc(walk, f);
    }
  }

  /**
   * Every copy is named "OUT_<job>_" followed by the rest of the original
   * name, and for a job number without a dot it keeps the original
   * extension.
   */
  lemma CopiesCarryJobNumber(walk: seq<WalkDir>, job: string, f: Found)
    requires f in Selected(walk)
    ensures "OUT_" + job + "_" <= Rename(f.name, job)
    ensures Rename(f.name, job)[5 + |job|..] == f.name[4..]
    ensures NoDot(job) ==> Ext(Rename(f.name, job)) == Ext(f.name)
  {
    SelectedIff(walk, f);
    DeliverableHasOutPrefix(f.name);
    RenameDeliverable(f.name, job);
    if NoDot(job) {
      RenameKeepsExtension(f.name, job);
    }
  }

  /** No two entries of `found` have the same file name. */
  predicate NamesDistinct(found: seq<Found>)
  {
    forall i, j :: 0 <= i < j < |found| ==> found[i].name != found[j].name
  }

  lemma DestinationsSnoc(out: Path, job: string, found: seq<Found>, f: Found)
    ensures Destinations(out, job, found + [f]) == Destinations(out, job, found) + {Destination(out, job, f)}
  {
    assert forall g :: g in found + [f] <==> g in found || g == f;
  }

  /** Two copies land on the same path exactly when the files have the same name. */
  lemma DestinationInjective(out: Path, job: string, f: Found, g: Found)
    ensures Destination(out, job, f) == Destination(out, job, g) <==> f.name == g.name
  {
    var a := Destination(out, job, f);
    if a == Destination(out, job, g) {
      assert a[|out|] == Rename(f.name, job) == Rename(g.name, job);
      RenameInjective(f.name, g.name, job);
    }
  }

  lemma DistinctSnoc(found: seq<Found>, f: Found)
    ensures NamesDistinct(found + [f]) <==>
              NamesDistinct(found) && forall g :: g in found ==> g.name != f.name
  {
    var all := found + [f];
    assert forall i :: 0 <= i < |found| ==> all[i] == found[i];
    if NamesDistinct(all) {
      forall g | g in found ensures g.name != f.name {
        var k :| 0 <= k < |found| && found[k] == g;
        assert all[k].name != all[|found|].name;
      }
    }
  }

  /**
   * Lines 137-140: the counter counts copies, not files.  The copies write
   * at most as many files as the counter says, and exactly as many only when
   * no file name is selected twice; a name found in two directories is
   * copied twice onto the same path.
   */
  lemma {:induction false} CopiesVersusCounter(out: Path, job: string, found: seq<Found>)
    ensures |Destinations(out, job, found)| <= |found|
    ensures |Destinations(out, job, found)| == |found| <==> NamesDistinct(found)
  {
    if found != [] {
      var init := found[..|found| - 1];
      var f := found[|found| - 1];
      assert found == init + [f];
      CopiesVersusCounter(out, job, init);
      DestinationsSnoc(out, job, init, f);
      DistinctSnoc(init, f);
      var d := Destination(out, job, f);
      if d in Destinations(out, job, init) {
        var g :| g in init && Destination(out, job, g) == d;
        DestinationInjective(out, job, f, g);
      } else {
        forall g | g in init ensures g.name != f.name {
          DestinationInjective(out, job, f, g);
        }
      }
    }
  }

  /** The relative paths of the copies, as the archive lists them. */
  function ArchivedNames(job: string, found: seq<Found>): set<Path>
  {
    set f | f in found :: [Rename(f.name, job)]
  }

  /**
   * Lines 142-147: the archive is made, and the output directory with
   * everything in it removed, exactly when 30 files were copied; otherwise
   * no archive is written and the copies stay in the output directory.
   * The removal fails only on an output path that already existed and is
   * not a directory.
   */
  lemma ArchivesIffThirty(fs: Fs, cfg: PackageConfig, walk: seq<WalkDir>)
    ensures var r := Package(fs, cfg, walk);
      && r.copied == |Selected(walk)|
      && r.conflict == Exists(fs, OutputPath(cfg))
      && (r.archived <==> r.copied == ExpectedCopies)
      && (r.error.Some? <==> r.archived && r.conflict && OutputPath(cfg) !in fs.dirs)
    ensures var r := Package(fs, cfg, walk);
      r.archived ==>
        && ArchivePath(cfg) in r.fs.zips
        && ArchivedNames(cfg.job, Selected(walk)) <= r.fs.zips[ArchivePath(cfg)]
        && (r.error.None? ==> Under(r.fs, OutputPath(cfg)) == {})
    ensures var r := Package(fs, cfg, walk);
      !r.archived ==>
        && r.fs.zips == fs.zips
        && OutputPath(cfg) in r.fs.dirs + r.fs.files + r.fs.zips.Keys
        && Destinations(OutputPath(cfg), cfg.job, Selected(walk)) <= r.fs.files
  {
    var out := OutputPath(cfg);
    var found := Selected(walk);
    var made := if Exists(fs, out) then fs else MakeDirs(fs, out).fs;
    var copied := Copied(made, out, cfg.job, found);
    if |found| == ExpectedCopies {
      ArchiveOutsideOutput(cfg);
      forall f | f in found ensures [Rename(f.name, cfg.job)] in FilesBelow(copied, out) {
        var q := Destination(out, cfg.job, f);
        assert out < q && q[|out|..] == [Rename(f.name, cfg.job)];
      }
    } else if !Exists(fs, out) {
      assert |out| > 0;
    }
  }

  /** The archive lies beside the output directory, not inside it, so removing the directory keeps it. */
  lemma ArchiveOutsideOutput(cfg: PackageConfig)
    ensures !(OutputPath(cfg) <= ArchivePath(cfg))
  {
    var out := OutputPath(cfg);
    var a := ArchivePath(cfg);
    assert |a[|a| - 1]| == |out[|out| - 1]| + 8;
  }

  /**
   * Line 144: the archive lists, relative to the output directory, the
   * files that were below it before the stage together with the renamed
   * copies, and it replaces any archive of the same name.
   */
  lemma ArchiveHoldsEarlierAndCopies(fs: Fs, cfg: PackageConfig, walk: seq<WalkDir>)
    requires |Selected(walk)| == ExpectedCopies
    ensures var r := Package(fs, cfg, walk);
      && ArchivePath(cfg) in r.fs.zips
      && r.fs.zips[ArchivePath(cfg)] == FilesBelow(fs, OutputPath(cfg)) + ArchivedNames(cfg.job, Selected(walk))
  {
    var out := OutputPath(cfg);
    var found := Selected(walk);
    var made := if Exists(fs, out) then fs else MakeDirs(fs, out).fs;
    var copied := Copied(made, out, cfg.job, found);
    ArchivesIffThirty(fs, cfg, walk);
    forall n | n in FilesBelow(copied, out)
      ensures n in FilesBelow(fs, out) + ArchivedNames(cfg.job, found)
    {
      var q :| q in copied.files && out < q && q[|out|..] == n;
      if q !in fs.files {
        var f :| f in found && q == Destination(out, cfg.job, f);
        assert q[|out|..] == [Rename(f.name, cfg.job)];
      }
    }
  }

  /**
   * When nothing existed at or below the output path before, the archive
   * holds exactly the renamed copies.
   */
  lemma FreshArchiveHoldsCopies(fs: Fs, cfg: PackageConfig, walk: seq<WalkDir>)
    requires Under(fs, OutputPath(cfg)) == {}
    requires |Selected(walk)| == ExpectedCopies
    ensures var r := Package(fs, cfg, walk);
      !r.conflict && r.error.None? && r.fs.zips[ArchivePath(cfg)] == ArchivedNames(cfg.job, Selected(walk))
  {
    var out := OutputPath(cfg);
    assert !Exists(fs, out) by {
      assert out in Under(fs, out) <== Exists(fs, out);
    }
    ArchivesIffThirty(fs, cfg, walk);
    ArchiveHoldsEarlierAndCopies(fs, cfg, walk);
    assert forall q :: q in fs.files && out < q ==> q in Under(fs, out);
    assert FilesBelow(fs, out) == {};
  }

  /**
   * Lines 117-121 as written: an existing output path is reported ("Closing
   * to avoid data loss") but the stage does not stop, so with 30 copies the
   * directory that was already there is deleted, with every folder and file
   * below it.  The archive then lists the earlier files beside the copies;
   * what is lost is the directory tree itself, the earlier files that a copy
   * of the same name overwrote, and any archive of the same name from an
   * earlier run.
   */
  lemma ExistingOutputIsDeleted(fs: Fs, cfg: PackageConfig, walk: seq<WalkDir>)
    requires OutputPath(cfg) in fs.dirs && |Selected(walk)| == ExpectedCopies
    ensures var r := Package(fs, cfg, walk);
      r.conflict && r.error.None? && OutputPath(cfg) !in r.fs.dirs && Under(r.fs, OutputPath(cfg)) == {}
    ensures var r := Package(fs, cfg, walk);
      r.fs.zips[ArchivePath(cfg)] == FilesBelow(fs, OutputPath(cfg)) + ArchivedNames(cfg.job, Selected(walk))
  {
    ArchivesIffThirty(fs, cfg, walk);
    ArchiveHoldsEarlierAndCopies(fs, cfg, walk);
  }

  /**
   * The stage as the message of line 120 describes it: an existing output
   * path stops the run before anything is copied.
   */
  function PackageStoppingOnConflict(fs: Fs, cfg: PackageConfig, walk: seq<WalkDir>): PackageResult
  {
    if Exists(fs, OutputPath(cfg)) then PackageResult(fs, 0, true, false, None)
    else Package(fs, cfg, walk)
  }

  /**
   * Stopping on a conflict loses nothing: an existing output path leaves the
   * filesystem untouched, and otherwise the stage is the one of lines 106-147.
   */
  lemma StoppingOnConflictKeepsExisting(fs: Fs, cfg: PackageConfig, walk: seq<WalkDir>)
    ensures var r := PackageStoppingOnConflict(fs, cfg, walk);
      (r.conflict <==> Exists(fs, OutputPath(cfg))) &&
      (r.conflict ==> r.fs == fs && !r.archived && r.copied == 0 && r.error.None?) &&
      (!r.conflict ==> r == Package(fs, cfg, walk))
  {
    ArchivesIffThirty(fs, cfg, walk);
  }

  lemma {:induction false} SelectedInPrefix(root: Path, files: seq<string>, j: nat)
    requires j < |files|
    ensures SelectedIn(root, files[..j + 1]) ==
              SelectedIn(root, files[..j]) + (if IsDeliverable(files[j]) then [Found(root, files[j])] else [])
  {
    assert files[..j + 1][..j] == files[..j];
  }

  lemma SelectedSnoc(walk: seq<WalkDir>, i: nat)
    requires i < |walk|
    ensures Selected(walk[..i + 1]) == Selected(walk[..i]) + SelectedIn(walk[i].root, walk[i].files)
  {
    assert walk[..i + 1][..i] == walk[..i];
  }

  /**
   * One more file of a directory: a deliverable is copied to its destination
   * and counted, any other file changes nothing.
   */
  lemma CopyNext(made: Fs, out: Path, job: string, before: seq<Found>, dir: WalkDir, j: nat, sel: seq<Found>)
    requires j < |dir.files| && sel == before + SelectedIn(dir.root, dir.files[..j])
    ensures var f := Found(dir.root, dir.files[j]);
      && (IsDeliverable(f.name) ==>
            before + SelectedIn(dir.root, dir.files[..j + 1]) == sel + [f] &&
            Copied(made, out, job, sel + [f]) == Copy(Copied(made, out, job, sel), Destination(out, job, f)))
      && (!IsDeliverable(f.name) ==> before + SelectedIn(dir.root, dir.files[..j + 1]) == sel)
  {
    SelectedInPrefix(dir.root, dir.files, j);
    DestinationsSnoc(out, job, sel, Found(dir.root, dir.files[j]));
  }

  /** Lines 129-140 for file `j` of a directory: a deliverable part is copied under its new name and counted. */
  method CopyIfDeliverable(fs: FileSystem, out: Path, job: string, ghost made: Fs, ghost before: seq<Found>,
                           dir: WalkDir, j: nat, ghost sel: seq<Found>, counter0: nat)
    returns (counter: nat, ghost next: seq<Found>)
    requires j < |dir.files| && sel == before + SelectedIn(dir.root, dir.files[..j])
    requires fs.State() == Copied(made, out, job, sel) && counter0 == |sel|
    modifies fs
    ensures next == before + SelectedIn(dir.root, dir.files[..j + 1])
    ensures fs.State() == Copied(made, out, job, next) && counter == |next|
  {
    var name := dir.files[j];
    CopyNext(made, out, job, before, dir, j, sel);
    counter, next := counter0, sel;
    if IsDeliverable(name) {
      fs.CopyFile(out + [Rename(name, job)]);
      counter, next := counter + 1, sel + [Found(dir.root, name)];
    }
  }

  /**
   * Lines 128-140 for one directory of the walk: each deliverable part is
   * copied under its new name and counted.
   */
  method CopyDirectory(fs: FileSystem, out: Path, job: string, ghost made: Fs, ghost before: seq<Found>,
                       dir: WalkDir, counter0: nat)
    returns (counter: nat)
    requires fs.State() == Copied(made, out, job, before) && counter0 == |before|
    modifies fs
    ensures fs.State() == Copied(made, out, job, before + SelectedIn(dir.root, dir.files))
    ensures counter == |before + SelectedIn(dir.root, dir.files)|
  {
    counter := counter0;
    ghost var sel := before;
    var j := 0;
    assert dir.files[..0] == [] && before + [] == before;
    while j < |dir.files|
      invariant 0 <= j <= |dir.files|
      invariant sel == before + SelectedIn(dir.root, dir.files[..j])
      invariant fs.State() == Copied(made, out, job, sel) && counter == |sel|
    {
      counter, sel := CopyIfDeliverable(fs, out, job, made, before, dir, j, sel, counter);
      j := j + 1;
    }
    assert dir.files[..j] == dir.files;
  }

  /**
   * Lines 106-147 on the live filesystem.  Returns the copy counter, whether
   * the output path already existed, whether the archive was made, and the
   * error the final removal raised, if any.
   */
  method CreateDeliverablePackage(fs: FileSystem, cfg: PackageConfig, walk: seq<WalkDir>)
    returns (copied: nat, conflict: bool, archived: bool, error: Option<OsError>)
    modifies fs
    ensures PackageResult(fs.State(), copied, conflict, archived, error) == Package(old(fs.State()), cfg, walk)
  {
    var out := OutputPath(cfg);
    conflict := fs.PathExists(out);
    if !conflict {
      var _ := fs.MakeDirectories(out);
    }
    ghost var made := fs.State();
    assert fs.State() == Copied(made, out, cfg.job, []);
    copied := 0;
    var i := 0;
    while i < |walk|
      invariant 0 <= i <= |walk|
      invariant fs.State() == Copied(made, out, cfg.job, Selected(walk[..i]))
      invariant copied == |Selected(walk[..i])|
    {
      SelectedSnoc(walk, i);
      copied := CopyDirectory(fs, out, cfg.job, made, Selected(walk[..i]), walk[i], copied);
      i := i + 1;
    }
    assert walk[..i] == walk;
    archived, error := copied == ExpectedCopies, None;
    if archived {
      fs.Archive(out, ArchivePath(cfg));
      error := fs.RemoveDirectoryTree(out);
    }
  }
}

=== FILE: setup.dfy ===
/**
 * Menu choice 1, "set up working environment" (lines 56-104): every download
 * whose name contains the job number is unzipped next to itself, its files
 * are copied, flattened, into the date-stamped job directory, the
 * `reprojected` and workspace directories are created, and the download is
 * renamed to mark it processed.  An existing job directory stops the run.
 *
 * `Step` and `Run` state what the stage does as a function of the
 * filesystem before it; the methods do it in place on a `FileSystem`.
 */
module Setup {
  import opened Common
  import opened Names
  import opened FileSystem

  /** A file in the downloads tree; `members` is None when it is not a zip archive. */
  datatype Entry = Entry(name: string, members: Option<seq<string>>)

  /** One directory of the downloads walk, with the files it lists. */
  datatype DownloadDir = DownloadDir(root: Path, entries: seq<Entry>)

  /** A file of the walk together with the directory it was found in. */
  datatype Download = Download(root: Path, entry: Entry)

  /** The fixed roots, the operator's answers and the date of the run. */
  datatype SetupConfig = SetupConfig(
    documents: Path, workspaces: Path,
    state: string, city: string, date: string, job: string)

  /** Why a run stopped early: the conflict check of line 82, or an uncaught library error. */
  datatype Halt = Aborted(jobDir: Path) | Crashed(error: OsError)

  /** The effect of handling one download. */
  datatype StepResult = StepResult(fs: Fs, halted: Option<Halt>)

  /** Where a run has got to: the filesystem, the downloads fully handled, and why it stopped. */
  datatype Progress = Progress(fs: Fs, done: nat, halted: Option<Halt>)

  /** Line 70: the state and city directory under the documents root. */
  function CityDir(cfg: SetupConfig): Path
  {
    cfg.documents + [cfg.state, cfg.city]
  }

  /** Line 80: the job directory; it depends on the configuration only, never on the download. */
  function JobDir(cfg: SetupConfig): (p: Path)
    ensures cfg.documents <= p && |p| == |cfg.documents| + 3
    ensures p[..|p| - 1] == CityDir(cfg) && p[|p| - 1] == JobDirName(cfg.date, cfg.job)
  {
    CityDir(cfg) + [JobDirName(cfg.date, cfg.job)]
  }

  /** Lines 73-74: the design tool's workspace directory for the job. */
  function WorkspaceDir(cfg: SetupConfig): Path
  {
    cfg.workspaces + [cfg.state, cfg.city, JobDirName(cfg.date, cfg.job)]
  }

  function Source(d: Download): Path
  {
    d.root + [d.entry.name]
  }

  /** Line 67: the extraction directory, beside the download. */
  function TempDir(d: Download): Path
  {
    d.root + [TempName(d.entry.name)]
  }

  /** Line 104: the new name of a handled download. */
  function ProcessedPath(d: Download): Path
  {
    d.root + [MarkerName(d.entry.name)]
  }

  /** Line 62: the files of one directory whose names contain the job number, in order. */
  function MatchesIn(root: Path, entries: seq<Entry>, job: string): seq<Download>
  {
    if entries == [] then []
    else
      var last := entries[|entries| - 1];
      MatchesIn(root, entries[..|entries| - 1], job) +
      (if Contains(last.name, job) then [Download(root, last)] else [])
  }

  /** The matching files of the whole walk, directory by directory. */
  function Matched(downloads: seq<DownloadDir>, job: string): seq<Download>
  {
    if downloads == [] then []
    else
      var last := downloads[|downloads| - 1];
      Matched(downloads[..|downloads| - 1], job) + MatchesIn(last.root, last.entries, job)
  }

  /** The files of one directory that are picked are exactly those whose names contain the job number. */
  lemma {:induction false} MatchesInIff(root: Path, entries: seq<Entry>, job: string, d: Download)
    ensures d in MatchesIn(root, entries, job) <==>
              d.root == root && d.entry in entries && Contains(d.entry.name, job)
  {
    if entries != [] {
      var init := entries[..|entries| - 1];
      MatchesInIff(root, init, job, d);
      assert entries == init + [entries[|entries| - 1]];
    }
  }

  /** Some directory of the walk lists the download. */
  predicate Listed(downloads: seq<DownloadDir>, d: Download)
  {
    exists i :: 0 <= i < |downloads| && downloads[i].root == d.root && d.entry in downloads[i].entries
  }

  lemma ListedSnoc(downloads: seq<DownloadDir>, d: Download)
    requires downloads != []
    ensures var last := downloads[|downloads| - 1];
      Listed(downloads, d) <==>
        Listed(downloads[..|downloads| - 1], d) || (last.root == d.root && d.entry in last.entries)
  {
    var init := downloads[..|downloads| - 1];
    if Listed(downloads, d) {
      var i :| 0 <= i < |downloads| && downloads[i].root == d.root && d.entry in downloads[i].entries;
      if i < |init| {
        assert init[i] == downloads[i];
      }
    }
    if Listed(init, d) {
      var i :| 0 <= i < |init| && init[i].root == d.root && d.entry in init[i].entries;
      assert downloads[i] == init[i];
    }
  }

  /** A download is picked exactly when some directory of the walk lists it and its name contains the job number. */
  lemma {:induction false} MatchedIff(downloads: seq<DownloadDir>, job: string, d: Download)
    ensures d in Matched(downloads, job) <==> Contains(d.entry.name, job) && Listed(downloads, d)
  {
    if downloads != [] {
      var last := downloads[|downloads| - 1];
      MatchedIff(downloads[..|downloads| - 1], job, d);
      MatchesInIff(last.root, last.entries, job, d);
      ListedSnoc(downloads, d);
    }
  }

  /** The copies in `dest` of the files `qs`, by base name (line 94). */
  function Flattened(qs: set<Path>, dest: Path): set<Path>
  {
    set q | q in qs && q != [] :: dest + [q[|q| - 1]]
  }

  lemma FlattenedAdd(qs: set<Path>, q: Path, dest: Path)
    requires q != []
    ensures Flattened(qs + {q}, dest) == Flattened(qs, dest) + {dest + [q[|q| - 1]]}
  {
  }

  /** Lines 92-96: every file below `tmp`, copied by its base name into `dest`. */
  function CopyFlattened(fs: Fs, tmp: Path, dest: Path): (r: Fs)
    ensures r.dirs == fs.dirs && r.zips == fs.zips
    ensures fs.files <= r.files
  {
    fs.(files := fs.files + Flattened(FilesUnder(fs, tmp), dest))
  }

  /**
   * Lines 63-104: what handling one matching download does.  The removal of
   * the extraction directory (lines 87 and 99) raises when the archive had
   * no members, since then that directory was never created.
   */
  function Step(fs: Fs, cfg: SetupConfig, d: Download): StepResult
  {
    var x := ExtractAll(fs, Source(d), d.entry.members, TempDir(d));
    if x.err.Some? then StepResult(x.fs, Some(Crashed(x.err.value)))
    else if Exists(x.fs, JobDir(cfg)) then
      var rm := RmTree(x.fs, TempDir(d));
      StepResult(rm.fs, Some(if rm.err.Some? then Crashed(rm.err.value) else Aborted(JobDir(cfg))))
    else
      var mk := Mkdir(x.fs, JobDir(cfg));
      if mk.err.Some? then StepResult(mk.fs, Some(Crashed(mk.err.value)))
      else
        var rm := RmTree(CopyFlattened(mk.fs, TempDir(d), JobDir(cfg)), TempDir(d));
        if rm.err.Some? then StepResult(rm.fs, Some(Crashed(rm.err.value)))
        else Finish(rm.fs, cfg, d)
  }

  /** Lines 100-104: the directories created after the copy, and the processed marker. */
  function Finish(fs: Fs, cfg: SetupConfig, d: Download): StepResult
  {
    var rep := MakeDirs(fs, JobDir(cfg) + ["reprojected"]);
    if rep.err.Some? then StepResult(rep.fs, Some(Crashed(rep.err.value)))
    else
      var ws := MakeDirs(rep.fs, WorkspaceDir(cfg));
      if ws.err.Some? then StepResult(ws.fs, Some(Crashed(ws.err.value)))
      else
        var mv := MoveFile(ws.fs, Source(d), ProcessedPath(d));
        StepResult(mv.fs, if mv.err.Some? then Some(Crashed(mv.err.value)) else None)
  }

  /** Lines 60-104: the downloads are handled in order until one stops the run. */
  function Run(fs: Fs, cfg: SetupConfig, ms: seq<Download>): Progress
  {
    if ms == [] then Progress(fs, 0, None)
    else
      var p := Run(fs, cfg, ms[..|ms| - 1]);
      if p.halted.Some? then p
      else
        var s := Step(p.fs, cfg, ms[|ms| - 1]);
        Progress(s.fs, if s.halted.None? then p.done + 1 else p.done, s.halted)
  }

  /** A run that has not stopped, extended by one more download, handles that download next. */
  lemma RunSnoc(fs: Fs, cfg: SetupConfig, ms: seq<Download>, d: Download, now: Fs, done: nat)
    requires Run(fs, cfg, ms) == Progress(now, done, None)
    ensures var s := Step(now, cfg, d);
      Run(fs, cfg, ms + [d]) == Progress(s.fs, if s.halted.None? then done + 1 else done, s.halted)
  {
    assert (ms + [d])[..|ms|] == ms;
  }

  /** Once a run has stopped, the downloads after that point change nothing. */
  lemma {:induction false} RunHaltedStays(fs: Fs, cfg: SetupConfig, ms: seq<Download>, k: nat)
    requires k <= |ms| && Run(fs, cfg, ms[..k]).halted.Some?
    ensures Run(fs, cfg, ms) == Run(fs, cfg, ms[..k])
    decreases |ms| - k
  {
    if k < |ms| {
      var init := ms[..|ms| - 1];
      assert init[..k] == ms[..k];
      RunHaltedStays(fs, cfg, init, k);
    } else {
      assert ms[..k] == ms;
    }
  }

  /** If one extension of `a` is a prefix of one of `b`, then `a` and `b` are prefix-related. */
  lemma PrefixCommon(a: Path, b: Path, x: Path, y: Path)
    requires a + x <= b + y
    ensures a <= b || b <= a
  {
    if |a| <= |b| {
      assert a == (a + x)[..|a|] == (b + y)[..|a|] == b[..|a|];
    } else {
      assert b == (b + y)[..|b|] == (a + x)[..|b|] == a[..|b|];
    }
  }

  /** Two paths that are apart stay apart whatever is appended to each. */
  lemma ApartExtend(a: Path, b: Path, x: Path, y: Path)
    requires Apart(a, b)
    ensures Apart(a + x, b + y)
  {
    if a + x <= b + y {
      PrefixCommon(a, b, x, y);
    }
    if b + y <= a + x {
      PrefixCommon(b, a, y, x);
    }
  }

  /** A path apart from `tmp` has nothing below it that lies below `tmp`. */
  lemma ApartBelow(tmp: Path, p: Path, q: Path)
    requires Apart(tmp, p) && p <= q
    ensures !(tmp <= q)
  {
  }

  /** The downloads tree lies apart from the documents root (as Downloads and Documents do). */
  predicate DownloadsApart(ms: seq<Download>, cfg: SetupConfig)
  {
    forall k :: 0 <= k < |ms| ==> Apart(ms[k].root, cfg.documents)
  }

  /** A member extracted into `tmp` is still in `jd` after the copy loop and the removal of `tmp`. */
  lemma CopiedSurvives(f: Fs, tmp: Path, jd: Path, m: string)
    requires tmp + [m] in f.files && Apart(tmp, jd)
    ensures jd + [m] in RemoveTree(CopyFlattened(f, tmp, jd), tmp).files
  {
    var q := tmp + [m];
    assert tmp < q && q[|q| - 1] == m;
    assert q in FilesUnder(f, tmp);
    assert jd + [m] in Flattened(FilesUnder(f, tmp), jd);
    ApartBelow(tmp, jd, jd + [m]);
  }

  /**
   * Lines 76-104: a download handled to the end leaves the job
   * directory holding a copy of every archive member, its `reprojected`
   * subdirectory, the workspace directory, and the download under its
   * processed name instead of its old one; when the downloads tree also
   * lies apart from the workspaces root, the extraction directory is gone.
   */
  lemma StepCompletes(fs: Fs, cfg: SetupConfig, d: Download)
    requires Apart(d.root, cfg.documents)
    requires Step(fs, cfg, d).halted.None?
    ensures d.entry.members.Some?
    ensures var r := Step(fs, cfg, d).fs;
      && JobDir(cfg) in r.dirs
      && JobDir(cfg) + ["reprojected"] in r.dirs
      && WorkspaceDir(cfg) in r.dirs
      && (forall m :: m in d.entry.members.value ==> JobDir(cfg) + [m] in r.files)
      && ProcessedPath(d) in r.files
      && Source(d) !in r.files
    ensures Apart(d.root, cfg.workspaces) ==> Under(Step(fs, cfg, d).fs, TempDir(d)) == {}
  {
    if Apart(d.root, cfg.workspaces) {
      StepRemovesTemp(fs, cfg, d);
    }
    var cleaned := StepReachesFinish(fs, cfg, d);
    FinishKeepsMembers(cleaned, cfg, d);
  }

  /**
   * Lines 100-104 after a job directory holding every member: the three
   * calls keep the members, add both directories and rename the download.
   */
  lemma FinishKeepsMembers(fs: Fs, cfg: SetupConfig, d: Download)
    requires Apart(d.root, cfg.documents) && d.entry.members.Some?
    requires JobDir(cfg) in fs.dirs
    requires forall m :: m in d.entry.members.value ==> JobDir(cfg) + [m] in fs.files
    requires Finish(fs, cfg, d).halted.None?
    ensures var r := Finish(fs, cfg, d).fs;
      && JobDir(cfg) in r.dirs
      && JobDir(cfg) + ["reprojected"] in r.dirs
      && WorkspaceDir(cfg) in r.dirs
      && (forall m :: m in d.entry.members.value ==> JobDir(cfg) + [m] in r.files)
      && ProcessedPath(d) in r.files
      && Source(d) !in r.files
  {
    FinishCompletes(fs, cfg, d);
    MarkerSplits(d.entry.name);
    assert ProcessedPath(d)[|d.root|] != Source(d)[|d.root|];
    var jd := JobDir(cfg);
    var tail := jd[|cfg.documents|..];
    assert cfg.documents + tail == jd;
    forall m | m in d.entry.members.value ensures jd + [m] != Source(d) {
      ApartExtend(d.root, cfg.documents, [d.entry.name], tail + [m]);
      assert cfg.documents + (tail + [m]) == jd + [m];
    }
  }

  /**
   * A download that completes gets through extraction, the conflict check and
   * `mkdir`; after the copy loop and the removal of the extraction directory
   * the job directory exists and holds every member.
   */
  lemma StepReachesFinish(fs: Fs, cfg: SetupConfig, d: Download) returns (cleaned: Fs)
    requires Apart(d.root, cfg.documents)
    requires Step(fs, cfg, d).halted.None?
    ensures d.entry.members.Some?
    ensures Step(fs, cfg, d) == Finish(cleaned, cfg, d)
    ensures Under(cleaned, TempDir(d)) == {}
    ensures JobDir(cfg) in cleaned.dirs
    ensures forall m :: m in d.entry.members.value ==> JobDir(cfg) + [m] in cleaned.files
  {
    var jd := JobDir(cfg);
    var tail := jd[|cfg.documents|..];
    assert cfg.documents + tail == jd;
    ApartExtend(d.root, cfg.documents, [TempName(d.entry.name)], tail);
    var x := ExtractAll(fs, Source(d), d.entry.members, TempDir(d));
    var mk := Mkdir(x.fs, jd);
    cleaned := RmTree(CopyFlattened(mk.fs, TempDir(d), jd), TempDir(d)).fs;
    forall m | m in d.entry.members.value ensures jd + [m] in cleaned.files {
      CopiedSurvives(mk.fs, TempDir(d), jd, m);
    }
    ApartBelow(TempDir(d), jd, jd);
  }

  /** A download handled to the end leaves the job directory in place. */
  lemma StepLeavesJobDir(fs: Fs, cfg: SetupConfig, d: Download)
    requires Apart(d.root, cfg.documents)
    requires Step(fs, cfg, d).halted.None?
    ensures JobDir(cfg) in Step(fs, cfg, d).fs.dirs
  {
    var cleaned := StepReachesFinish(fs, cfg, d);
    FinishCompletes(cleaned, cfg, d);
  }

  /** No directory `makedirs(p)` creates lies at or below a path apart from `p`. */
  lemma AncestorsApart(t: Path, p: Path)
    requires Apart(t, p)
    ensures forall q :: q in Ancestors(p) ==> !(t <= q)
  {
    forall q | q in Ancestors(p) ensures !(t <= q) {
      if t <= q {
        PrefixCommon(t, p, [], []);
      }
    }
  }

  /**
   * Lines 98-104: once a download is handled to the end, its extraction
   * directory is gone; the directories created after its removal, and the
   * processed name, all lie elsewhere.
   */
  lemma StepRemovesTemp(fs: Fs, cfg: SetupConfig, d: Download)
    requires Apart(d.root, cfg.documents) && Apart(d.root, cfg.workspaces)
    requires Step(fs, cfg, d).halted.None?
    ensures Under(Step(fs, cfg, d).fs, TempDir(d)) == {}
  {
    var cleaned := StepReachesFinish(fs, cfg, d);
    TempApartFromReprojected(cfg, d);
    TempApartFromWorkspace(cfg, d);
    FinishKeepsOut(cleaned, cfg, d, TempDir(d));
  }

  lemma TempApartFromReprojected(cfg: SetupConfig, d: Download)
    requires Apart(d.root, cfg.documents)
    ensures Apart(TempDir(d), JobDir(cfg) + ["reprojected"]) && !(TempDir(d) <= ProcessedPath(d))
  {
    var rp := JobDir(cfg) + ["reprojected"];
    var tail := rp[|cfg.documents|..];
    assert cfg.documents + tail == rp;
    ApartExtend(d.root, cfg.documents, [TempName(d.entry.name)], tail);
    assert |ProcessedPath(d)| == |TempDir(d)|;
    assert ProcessedPath(d)[|d.root|] != TempDir(d)[|d.root|];
  }

  lemma TempApartFromWorkspace(cfg: SetupConfig, d: Download)
    requires Apart(d.root, cfg.workspaces)
    ensures Apart(TempDir(d), WorkspaceDir(cfg))
  {
    ApartExtend(d.root, cfg.workspaces, [TempName(d.entry.name)], [cfg.state, cfg.city, JobDirName(cfg.date, cfg.job)]);
  }

  /** With the three fixed roots apart, `reprojected` lies apart from the workspace directory and the processed name. */
  lemma ReprojectedApart(cfg: SetupConfig, d: Download)
    requires Apart(d.root, cfg.documents) && Apart(cfg.documents, cfg.workspaces)
    ensures Apart(JobDir(cfg) + ["reprojected"], WorkspaceDir(cfg))
    ensures !(JobDir(cfg) + ["reprojected"] <= ProcessedPath(d))
  {
    var rp := JobDir(cfg) + ["reprojected"];
    var tail := rp[|cfg.documents|..];
    assert cfg.documents + tail == rp;
    ApartExtend(cfg.documents, cfg.workspaces, tail, [cfg.state, cfg.city, JobDirName(cfg.date, cfg.job)]);
    ApartExtend(cfg.documents, d.root, tail, [MarkerName(d.entry.name)]);
  }

  /** The last three calls of a download add nothing at or below a path apart from the directories they create. */
  lemma FinishKeepsOut(fs: Fs, cfg: SetupConfig, d: Download, t: Path)
    requires Apart(t, JobDir(cfg) + ["reprojected"]) && Apart(t, WorkspaceDir(cfg)) && !(t <= ProcessedPath(d))
    requires Under(fs, t) == {} && Finish(fs, cfg, d).halted.None?
    ensures Under(Finish(fs, cfg, d).fs, t) == {}
  {
    var rep := MakeDirs(fs, JobDir(cfg) + ["reprojected"]);
    var ws := MakeDirs(rep.fs, WorkspaceDir(cfg));
    AncestorsApart(t, JobDir(cfg) + ["reprojected"]);
    AncestorsApart(t, WorkspaceDir(cfg));
    assert Under(ws.fs, t) == {};
  }

  /**
   * Lines 76-104: when nothing lay at or below the job directory before, a
   * download handled to the end leaves `reprojected` as an empty directory.
   * The downloads tree, the documents root and the workspaces root are taken
   * to lie apart, as the script's fixed folders do.
   */
  lemma StepLeavesReprojectedEmpty(fs: Fs, cfg: SetupConfig, d: Download)
    requires Apart(d.root, cfg.documents) && Apart(cfg.documents, cfg.workspaces)
    requires Under(fs, JobDir(cfg)) == {}
    requires Step(fs, cfg, d).halted.None?
    ensures Under(Step(fs, cfg, d).fs, JobDir(cfg) + ["reprojected"]) == {JobDir(cfg) + ["reprojected"]}
  {
    var cleaned := StepFinishes(fs, cfg, d);
    TempApartFromReprojected(cfg, d);
    ReprojectedApart(cfg, d);
    CleanedBelowReprojected(fs, Source(d), d.entry.members.value, TempDir(d), JobDir(cfg));
    FinishReprojectedEmpty(cleaned, cfg, d);
  }

  /**
   * Lines 100-104 with nothing at or below `reprojected` but possibly
   * `reprojected` itself: when the calls succeed, `reprojected` is a
   * directory with nothing below it.
   */
  lemma FinishReprojectedEmpty(fs: Fs, cfg: SetupConfig, d: Download)
    requires Under(fs, JobDir(cfg) + ["reprojected"]) <= {JobDir(cfg) + ["reprojected"]}
    requires Apart(JobDir(cfg) + ["reprojected"], WorkspaceDir(cfg)) && !(JobDir(cfg) + ["reprojected"] <= ProcessedPath(d))
    requires Finish(fs, cfg, d).halted.None?
    ensures Under(Finish(fs, cfg, d).fs, JobDir(cfg) + ["reprojected"]) == {JobDir(cfg) + ["reprojected"]}
  {
    var rp := JobDir(cfg) + ["reprojected"];
    var rep := MakeDirs(fs, rp);
    var ws := MakeDirs(rep.fs, WorkspaceDir(cfg));
    assert Under(fs, rp) == {} by {
      assert !Exists(fs, rp);
    }
    forall q | q in Ancestors(rp) && rp <= q ensures q == rp {
      assert q <= rp;
    }
    AncestorsApart(rp, WorkspaceDir(cfg));
    assert Under(ws.fs, rp) == {rp};
  }

  /** A download handled to the end ends with the calls of lines 100-104 on the state the copy loop and removal leave. */
  lemma StepFinishes(fs: Fs, cfg: SetupConfig, d: Download) returns (cleaned: Fs)
    requires Step(fs, cfg, d).halted.None?
    ensures d.entry.members.Some?
    ensures cleaned == RmTree(CopyFlattened(Mkdir(ExtractAll(fs, Source(d), d.entry.members, TempDir(d)).fs, JobDir(cfg)).fs,
                                            TempDir(d), JobDir(cfg)), TempDir(d)).fs
    ensures Step(fs, cfg, d) == Finish(cleaned, cfg, d)
  {
    var x := ExtractAll(fs, Source(d), d.entry.members, TempDir(d));
    var mk := Mkdir(x.fs, JobDir(cfg));
    cleaned := RmTree(CopyFlattened(mk.fs, TempDir(d), JobDir(cfg)), TempDir(d)).fs;
  }

  /**
   * Lines 76-99 with nothing at or below the job directory beforehand: after
   * the extraction directory is removed, nothing lies below `reprojected`
   * (only a copied member of that very name could be at it).
   */
  lemma CleanedBelowReprojected(fs: Fs, archive: Path, members: seq<string>, tmp: Path, jd: Path)
    requires Apart(tmp, jd + ["reprojected"]) && Under(fs, jd) == {}
    ensures var x := ExtractAll(fs, archive, Some(members), tmp);
      var mk := Mkdir(x.fs, jd);
      Under(RmTree(CopyFlattened(mk.fs, tmp, jd), tmp).fs, jd + ["reprojected"]) <= {jd + ["reprojected"]}
  {
    var rp := jd + ["reprojected"];
    var x := ExtractAll(fs, archive, Some(members), tmp);
    var mk := Mkdir(x.fs, jd);
    var copied := CopyFlattened(mk.fs, tmp, jd);
    ExtractKeepsApart(fs, archive, members, tmp, rp);
    assert Under(fs, rp) == {} by {
      assert forall q :: q in Under(fs, rp) ==> q in Under(fs, jd);
    }
    assert Under(mk.fs, rp) == {} by {
      assert forall q :: q in Under(mk.fs, rp) ==> q in Under(x.fs, rp) || q == jd;
    }
    CopyBelowReprojected(mk.fs, tmp, jd);
    assert Under(RmTree(copied, tmp).fs, rp) <= Under(copied, rp);
  }

  /** Extraction into `tmp` adds nothing at or below a path apart from it. */
  lemma ExtractKeepsApart(fs: Fs, archive: Path, members: seq<string>, tmp: Path, p: Path)
    requires Apart(tmp, p)
    ensures Under(ExtractAll(fs, archive, Some(members), tmp).fs, p) == Under(fs, p)
  {
    var x := ExtractAll(fs, archive, Some(members), tmp).fs;
    forall q | q in Under(x, p) ensures q in Under(fs, p) {
      ApartBelow(tmp, p, q);
    }
  }

  /** The flattened copies into `jd` put at most `jd/reprojected` itself at or below `jd/reprojected`. */
  lemma CopyBelowReprojected(fs: Fs, tmp: Path, jd: Path)
    requires Under(fs, jd + ["reprojected"]) == {}
    ensures Under(CopyFlattened(fs, tmp, jd), jd + ["reprojected"]) <= {jd + ["reprojected"]}
  {
    var rp := jd + ["reprojected"];
    forall q | q in Under(CopyFlattened(fs, tmp, jd), rp) ensures q == rp {
      assert q !in Under(fs, rp);
      assert q in Flattened(FilesUnder(fs, tmp), jd);
      var p :| p in FilesUnder(fs, tmp) && p != [] && q == jd + [p[|p| - 1]];
      assert |q| == |rp|;
    }
  }

  /** The last three calls of a download only add directories and rename the download. */
  lemma FinishCompletes(fs: Fs, cfg: SetupConfig, d: Download)
    requires Finish(fs, cfg, d).halted.None?
    ensures var r := Finish(fs, cfg, d).fs;
      && fs.dirs + {JobDir(cfg) + ["reprojected"], WorkspaceDir(cfg)} <= r.dirs
      && r.files == fs.files - {Source(d)} + {ProcessedPath(d)}
  {
    var rep := MakeDirs(fs, JobDir(cfg) + ["reprojected"]);
    var ws := MakeDirs(rep.fs, WorkspaceDir(cfg));
    assert |WorkspaceDir(cfg)| > 0;
  }

  /**
   * Extracting into `tmp` and removing `tmp` again, whether or not the
   * removal raises, leaves every path apart from `tmp` as it was.
   */
  lemma ExtractRemoveKeeps(fs: Fs, archive: Path, members: seq<string>, tmp: Path, p: Path)
    requires Apart(tmp, p)
    ensures Under(RmTree(ExtractAll(fs, archive, Some(members), tmp).fs, tmp).fs, p) == Under(fs, p)
  {
    var x := ExtractAll(fs, archive, Some(members), tmp).fs;
    var r := RmTree(x, tmp).fs;
    forall q | q in Under(fs, p) ensures q in Under(r, p) {
      ApartBelow(tmp, p, q);
    }
    forall q | q in Under(r, p) ensures q in Under(fs, p) {
      ApartBelow(tmp, p, q);
    }
  }

  /**
   * Lines 80-88: the job directory does not depend on the download, so once
   * one download has been handled every further match finds it existing.
   * A run therefore handles at most one download to the end; with two or more
   * matches it always stops at the second, and if the first was handled the
   * second stops (at the conflict check, on a file that is not a zip, or on
   * an archive without members whose extraction directory is then not a
   * directory to remove)
   * before anything is copied, leaving the job directory as the first left it.
   */
  lemma OneArchivePerRun(fs: Fs, cfg: SetupConfig, ms: seq<Download>)
    requires DownloadsApart(ms, cfg)
    ensures Run(fs, cfg, ms).done <= 1
    ensures |ms| >= 2 ==> Run(fs, cfg, ms) == Run(fs, cfg, ms[..2]) && Run(fs, cfg, ms).halted.Some?
    ensures |ms| >= 2 && Run(fs, cfg, ms[..1]).halted.None? ==>
              var p := Run(fs, cfg, ms);
              && p.done == 1
              && p.halted.value in {Aborted(JobDir(cfg)), Crashed(BadZipFile(Source(ms[1]))),
                                    Crashed(FileNotFound(TempDir(ms[1]))), Crashed(NotADirectory(TempDir(ms[1])))}
              && Under(p.fs, JobDir(cfg)) == Under(Run(fs, cfg, ms[..1]).fs, JobDir(cfg))
  {
    if ms != [] {
      var first := Step(fs, cfg, ms[0]);
      assert ms[..1] == [] + [ms[0]];
      RunSnoc(fs, cfg, [], ms[0], fs, 0);
      var p1 := Run(fs, cfg, ms[..1]);
      if |ms| == 1 {
        assert ms[..1] == ms;
      } else {
        assert ms[..2] == ms[..1] + [ms[1]];
        if p1.halted.None? {
          StepLeavesJobDir(fs, cfg, ms[0]);
          RunSnoc(fs, cfg, ms[..1], ms[1], p1.fs, 1);
          SecondStepHalts(p1.fs, cfg, ms[1]);
        } else {
          assert ms[..2][..1] == ms[..1];
          RunHaltedStays(fs, cfg, ms[..2], 1);
        }
        RunHaltedStays(fs, cfg, ms, 2);
      }
    }
  }

  /**
   * Lines 76-88 for a download met after the job directory exists: a file
   * that is not a zip archive stops the run at line 76; an archive with
   * members, or one whose extraction directory was already there, stops it
   * at the conflict check; an archive without members stops it at line 87,
   * where the extraction directory to be removed does not exist.  Everything
   * at or below the job directory is left as it was.
   */
  lemma SecondStepHalts(fs: Fs, cfg: SetupConfig, d: Download)
    requires JobDir(cfg) in fs.dirs && Apart(d.root, cfg.documents)
    ensures d.entry.members.None? ==> Step(fs, cfg, d).halted == Some(Crashed(BadZipFile(Source(d))))
    ensures d.entry.members.Some? && (d.entry.members.value != [] || TempDir(d) in fs.dirs) ==>
              Step(fs, cfg, d).halted == Some(Aborted(JobDir(cfg)))
    ensures d.entry.members == Some([]) && !Exists(fs, TempDir(d)) ==>
              Step(fs, cfg, d).halted == Some(Crashed(FileNotFound(TempDir(d))))
    ensures Step(fs, cfg, d).halted in
              {Some(Aborted(JobDir(cfg))), Some(Crashed(BadZipFile(Source(d)))),
               Some(Crashed(FileNotFound(TempDir(d)))), Some(Crashed(NotADirectory(TempDir(d))))}
    ensures Under(Step(fs, cfg, d).fs, JobDir(cfg)) == Under(fs, JobDir(cfg))
  {
    if d.entry.members.Some? {
      var jd := JobDir(cfg);
      var tail := jd[|cfg.documents|..];
      assert cfg.documents + tail == jd;
      ApartExtend(d.root, cfg.documents, [TempName(d.entry.name)], tail);
      ExtractRemoveKeeps(fs, Source(d), d.entry.members.value, TempDir(d), jd);
    }
  }

  /** A prefix of the walk's matches, up to file `j` of directory `i`, is a prefix of all its matches. */
  lemma {:induction false} MatchedPrefix(downloads: seq<DownloadDir>, job: string, i: nat, j: nat)
    requires i < |downloads| && j <= |downloads[i].entries|
    ensures Matched(downloads[..i], job) + MatchesIn(downloads[i].root, downloads[i].entries[..j], job)
              <= Matched(downloads, job)
    decreases |downloads|
  {
    var dir := downloads[i];
    MatchesInPrefix(dir.root, dir.entries, job, j);
    assert downloads[..i + 1][..i] == downloads[..i];
    assert Matched(downloads[..i + 1], job) == Matched(downloads[..i], job) + MatchesIn(dir.root, dir.entries, job);
    MatchedTake(downloads, job, i + 1);
  }

  lemma {:induction false} MatchesInPrefix(root: Path, entries: seq<Entry>, job: string, j: nat)
    requires j <= |entries|
    ensures MatchesIn(root, entries[..j], job) <= MatchesIn(root, entries, job)
    decreases |entries|
  {
    if j < |entries| {
      var init := entries[..|entries| - 1];
      assert init[..j] == entries[..j];
      MatchesInPrefix(root, init, job, j);
    } else {
      assert entries[..j] == entries;
    }
  }

  lemma {:induction false} MatchedTake(downloads: seq<DownloadDir>, job: string, i: nat)
    requires i <= |downloads|
    ensures Matched(downloads[..i], job) <= Matched(downloads, job)
    decreases |downloads|
  {
    if i < |downloads| {
      var init := downloads[..|downloads| - 1];
      assert init[..i] == downloads[..i];
      MatchedTake(init, job, i);
    } else {
      assert downloads[..i] == downloads;
    }
  }

  /** Lines 92-96: the copy loop, over the files below `tmp` in any order. */
  method CopyTree(fs: FileSystem, tmp: Path, dest: Path)
    modifies fs
    ensures fs.State() == CopyFlattened(old(fs.State()), tmp, dest)
  {
    ghost var start := fs.State();
    var todo := FilesUnder(fs.State(), tmp);
    ghost var done: set<Path> := {};
    while todo != {}
      invariant todo + done == FilesUnder(start, tmp)
      invariant todo !! done
      invariant fs.dirs == start.dirs && fs.zips == start.zips
      invariant fs.files == start.files + Flattened(done, dest)
      decreases todo
    {
      var q :| q in todo;
      assert q != [];
      FlattenedAdd(done, q, dest);
      fs.CopyFile(dest + [q[|q| - 1]]);
      todo := todo - {q};
      done := done + {q};
    }
  }

  /** Lines 63-104 on the live filesystem. */
  method ProcessDownload(fs: FileSystem, cfg: SetupConfig, d: Download) returns (halted: Option<Halt>)
    modifies fs
    ensures StepResult(fs.State(), halted) == Step(old(fs.State()), cfg, d)
  {
    var source, tmp, jobDir := Source(d), TempDir(d), JobDir(cfg);
    var err := fs.Extract(source, d.entry.members, tmp);
    if err.Some? {
      return Some(Crashed(err.value));
    }
    if fs.PathExists(jobDir) {
      err := fs.RemoveDirectoryTree(tmp);
      return Some(if err.Some? then Crashed(err.value) else Aborted(jobDir));
    }
    err := fs.MakeDir(jobDir);
    if err.Some? {
      return Some(Crashed(err.value));
    }
    CopyTree(fs, tmp, jobDir);
    err := fs.RemoveDirectoryTree(tmp);
    if err.Some? {
      return Some(Crashed(err.value));
    }
    err := fs.MakeDirectories(jobDir + ["reprojected"]);
    if err.Some? {
      return Some(Crashed(err.value));
    }
    err := fs.MakeDirectories(WorkspaceDir(cfg));
    if err.Some? {
      return Some(Crashed(err.value));
    }
    err := fs.RenameFile(source, ProcessedPath(d));
    halted := if err.Some? then Some(Crashed(err.value)) else None;
  }

  /** A file whose name lacks the job number adds nothing to the matches of its directory. */
  lemma MatchesInSkip(root: Path, entries: seq<Entry>, job: string, j: nat)
    requires j < |entries| && !Contains(entries[j].name, job)
    ensures MatchesIn(root, entries[..j + 1], job) == MatchesIn(root, entries[..j], job)
  {
    assert entries[..j + 1][..j] == entries[..j];
  }

  /** A file whose name contains the job number is the next match of its directory. */
  lemma MatchesInNext(root: Path, entries: seq<Entry>, job: string, j: nat)
    requires j < |entries| && Contains(entries[j].name, job)
    ensures MatchesIn(root, entries[..j + 1], job) == MatchesIn(root, entries[..j], job) + [Download(root, entries[j])]
  {
    assert entries[..j + 1][..j] == entries[..j];
  }

  /** A run that stops within the first files of a directory is not changed by the rest of it. */
  lemma HaltedInDirectory(init: Fs, cfg: SetupConfig, before: seq<Download>, dir: DownloadDir, j: nat)
    requires j <= |dir.entries|
    requires Run(init, cfg, before + MatchesIn(dir.root, dir.entries[..j], cfg.job)).halted.Some?
    ensures Run(init, cfg, before + MatchesIn(dir.root, dir.entries, cfg.job)) ==
              Run(init, cfg, before + MatchesIn(dir.root, dir.entries[..j], cfg.job))
  {
    var upto := before + MatchesIn(dir.root, dir.entries[..j], cfg.job);
    var all := before + MatchesIn(dir.root, dir.entries, cfg.job);
    MatchesInPrefix(dir.root, dir.entries, cfg.job, j);
    assert all[..|upto|] == upto;
    RunHaltedStays(init, cfg, all, |upto|);
  }

  /**
   * Handling the next matching file of a directory: a run that had got as far
   * as file `j` either goes on to file `j + 1` with one more download done, or
   * stops, and then the rest of the directory changes nothing.
   */
  lemma MatchesInAdvance(init: Fs, cfg: SetupConfig, before: seq<Download>, dir: DownloadDir, j: nat,
                         now: Fs, done: nat, after: StepResult)
    requires j < |dir.entries| && Contains(dir.entries[j].name, cfg.job)
    requires Run(init, cfg, before + MatchesIn(dir.root, dir.entries[..j], cfg.job)) == Progress(now, done, None)
    requires Step(now, cfg, Download(dir.root, dir.entries[j])) == after
    ensures after.halted.None? ==>
              Run(init, cfg, before + MatchesIn(dir.root, dir.entries[..j + 1], cfg.job)) == Progress(after.fs, done + 1, None)
    ensures after.halted.Some? ==>
              Run(init, cfg, before + MatchesIn(dir.root, dir.entries, cfg.job)) == Progress(after.fs, done, after.halted)
  {
    var d := Download(dir.root, dir.entries[j]);
    var upto := before + MatchesIn(dir.root, dir.entries[..j], cfg.job);
    MatchesInNext(dir.root, dir.entries, cfg.job, j);
    assert before + MatchesIn(dir.root, dir.entries[..j + 1], cfg.job) == upto + [d];
    RunSnoc(init, cfg, upto, d, now, done);
    if after.halted.Some? {
      HaltedInDirectory(init, cfg, before, dir, j + 1);
    }
  }

  /**
   * Lines 62-104 for one directory of the walk: its files are tried in order
   * and each match is handled, until one stops the run.  `before` is what the
   * walk matched in earlier directories; the result extends that run.
   */
  method HandleDirectory(fs: FileSystem, cfg: SetupConfig, ghost init: Fs, ghost before: seq<Download>,
                         dir: DownloadDir, done0: nat)
    returns (done: nat, halted: Option<Halt>)
    requires Run(init, cfg, before) == Progress(fs.State(), done0, None)
    modifies fs
    ensures Run(init, cfg, before + MatchesIn(dir.root, dir.entries, cfg.job)) == Progress(fs.State(), done, halted)
  {
    done, halted := done0, None;
    var j := 0;
    assert dir.entries[..0] == [] && before + [] == before;
    while j < |dir.entries|
      invariant 0 <= j <= |dir.entries|
      invariant halted.None?
      invariant Run(init, cfg, before + MatchesIn(dir.root, dir.entries[..j], cfg.job))
                  == Progress(fs.State(), done, None)
    {
      var e := dir.entries[j];
      if Contains(e.name, cfg.job) {
        ghost var now := fs.State();
        var h := ProcessDownload(fs, cfg, Download(dir.root, e));
        MatchesInAdvance(init, cfg, before, dir, j, now, done, StepResult(fs.State(), h));
        if h.Some? {
          return done, h;
        }
        done := done + 1;
      } else {
        MatchesInSkip(dir.root, dir.entries, cfg.job, j);
      }
      j := j + 1;
    }
    assert dir.entries[..j] == dir.entries;
  }

  /** The matches of the walk up to directory `i + 1` are those up to `i` followed by directory `i`'s. */
  lemma MatchedSnoc(downloads: seq<DownloadDir>, job: string, i: nat)
    requires i < |downloads|
    ensures Matched(downloads[..i + 1], job) ==
              Matched(downloads[..i], job) + MatchesIn(downloads[i].root, downloads[i].entries, job)
  {
    assert downloads[..i + 1][..i] == downloads[..i];
  }

  /** A run that stops within the first `i` directories is the run over the whole walk. */
  lemma MatchedHalted(init: Fs, cfg: SetupConfig, downloads: seq<DownloadDir>, i: nat)
    requires i <= |downloads| && Run(init, cfg, Matched(downloads[..i], cfg.job)).halted.Some?
    ensures Run(init, cfg, Matched(downloads, cfg.job)) == Run(init, cfg, Matched(downloads[..i], cfg.job))
  {
    var all := Matched(downloads, cfg.job);
    var upto := Matched(downloads[..i], cfg.job);
    MatchedTake(downloads, cfg.job, i);
    assert all[..|upto|] == upto;
    RunHaltedStays(init, cfg, all, |upto|);
  }

  /**
   * Lines 60-104: walks the downloads, handling each file whose name contains
   * the job number, and stops at the first conflict or error (`sys.exit` or
   * an uncaught exception).  Returns how many downloads were handled to the
   * end and why the run stopped, if it did.
   */
  method SetUpWorkingEnvironment(fs: FileSystem, cfg: SetupConfig, downloads: seq<DownloadDir>)
    returns (done: nat, halted: Option<Halt>)
    modifies fs
    ensures Progress(fs.State(), done, halted) == Run(old(fs.State()), cfg, Matched(downloads, cfg.job))
  {
    ghost var init := fs.State();
    done, halted := 0, None;
    var i := 0;
    while i < |downloads|
      invariant 0 <= i <= |downloads|
      invariant halted.None?
      invariant Run(init, cfg, Matched(downloads[..i], cfg.job)) == Progress(fs.State(), done, None)
    {
      MatchedSnoc(downloads, cfg.job, i);
      done, halted := HandleDirectory(fs, cfg, init, Matched(downloads[..i], cfg.job), downloads[i], done);
      if halted.Some? {
        MatchedHalted(init, cfg, downloads, i + 1);
        return;
      }
      i := i + 1;
    }
    assert downloads[..i] == downloads;
  }
}
